=== FILE: README.md ===
# Scipion / Xmipp bookkeeping cores in Dafny

This project models the sequential bookkeeping of six parts of the
Scipion/Xmipp sources and proves what each promises:

- **Fourier layout helpers** (`fft.cpp`, module `FFT`): the conversions
  between the whole and the half storage of a centro-symmetric 2D spectrum
  (`Whole2Half`, `Half2Whole`) with their round-trip law, the squared
  distance `distancia2`, the ring-pixel count of `my_ssnr_step`, the
  wrap-around reorder of the Savitzky-Golay coefficients of
  `numerical_derivative`, and the three-multiplication update of
  `ShiftFFT`. Matrices are sequences of rows; outputs are `array2`/`array`
  filled by the source's loops.
- **The `.cor` lattice file** (`xmippCCLattice_IO.cc`, module `CCLattice`):
  the `CCLattice_IO` object with its five parallel spot vectors, `read`
  (header, then one line per lattice cell, threshold filter), `write`, and
  `compute_shifts`. The file is a sequence of lines; `AtoI`/`AtoD` and the
  fixed-precision rendering of reals are parameters.
- **Project settings** (`config.py`, module `Config`): `NodeConfig`,
  `NodeConfigList` (list plus id index), `MenuConfig`/`ProtocolConfig` and
  the recursive `add` of the protocol reader, the host option `get`, the
  `setw`/`setm` defaulting and the `loadSettings` count check.
- **Defocus groups** (`protocol_projmatch.py`, module `SpiderProjMatch`):
  `_writeGroupFiles` and `DefocusGroupInfo`; image conversion and document
  writes are appends to per-group logs.
- **ML2D header pieces** (`ml_align2d.h`, module `MLAlign2D`): the
  `FOR_ALL_THREAD_REFNO` walk over reference indices, the `JMTimer` table
  (the clock is a parameter), and the thread-task codes.
- **PCA-validation control** (`angular_accuracy_pca.cpp`, module
  `AngularAccuracyPCA`): block-to-rank assignment, the choice of the number
  of components, the `newXdim` fallback and the row counter of the three
  passes of `obtainPCAs`.

`Wrappers` holds `Option`, a numbered-error `Status`, a map helper and
the regrouping of concatenations the loops use;
`Text` holds tokenising and decimal rendering shared by the readers and
writers.

The `.cor` writer and reader do not agree on the body layout: `write`
emits `xi yi x y cc` per record while `read` takes the first three tokens
as `x y cc`. `CCLattice.WrittenSpotMisread` proves what `read` makes of a
written line; the header, in contrast, reads back exactly
(`CCLattice.WriteThenReadHeader`) provided every header real prints at its
precision (five decimals, one for `cc_max`) as a token that converts back
to it (`HeaderExact`).

`read` takes its lines with `getline`, which leaves its string as it was
once the stream has failed. A file whose last line has no newline is
therefore read as that line repeated for every cell after the end
(`CCLattice.UnterminatedLastLineRepeats`); after a final newline the
remaining cells read empty lines.

## Model

| member | source | states |
|---|---|---|
| FFT.Whole2Half | trunk/xmipp/libraries/data/fft.cpp:32-46 | the output has `YSIZE/2+1` rows and `XSIZE` columns; rows 1.. are copied verbatim; row 0 is copied below column `ldim` and zero from there on |
| FFT.Half2Whole | trunk/xmipp/libraries/data/fft.cpp:50-69 | the output is `oriydim x XSIZE(in)` and every entry is the one the three loops leave: old rows copied, row 0 completed by `conj(in[0][XSIZE-j])` from column `YSIZE(in)`, new rows `i` mirrored from row `oriydim-i`; all reads are in bounds when `YSIZE(in) <= oriydim <= 2*YSIZE(in)-1` |
| FFT.CopyOldRows | trunk/xmipp/libraries/data/fft.cpp:56-59 | rows `0..YSIZE(in)-1` of the output equal the input |
| FFT.CompleteFirstRow | trunk/xmipp/libraries/data/fft.cpp:60-62 | row 0 from column `YSIZE(in)` on becomes `conj(in[0][XSIZE(in)-j])`; every other entry is unchanged |
| FFT.MirrorNewRows | trunk/xmipp/libraries/data/fft.cpp:63-68 | each new row `i` holds `conj(in[oriydim-i][0])` in column 0 and `conj(in[oriydim-i][XSIZE(in)-j])` in column `j >= 1`; the old rows are unchanged |
| FFT.HalfWholeRoundTrip | trunk/xmipp/libraries/data/fft.cpp:31-69 | for a square centro-symmetric spectrum `M`, the whole layout rebuilt from its half layout is `M` again |
| FFT.Distancia2 | trunk/xmipp/libraries/data/fft.cpp:372-380 | the squared distance to `(m/2, m/2)` (truncating division) is never negative and is zero exactly at that centre |
| FFT.RingsDisjoint | trunk/xmipp/libraries/data/fft.cpp:401-410 | no distance lies in the rings `[(i+0.5)^2, (i+1.5)^2)` of two different indices |
| FFT.RingCountBound | trunk/xmipp/libraries/data/fft.cpp:405-417 | a ring never counts more pixels than the `n x (n/2+1)` half-plane scanned |
| FFT.SsnrStep | trunk/xmipp/libraries/data/fft.cpp:382-421 | for every ring `i`, `pixel(i)` is overwritten with the ring's pixel count while `ssnr(i)` is accumulated with `+=`; the rest of `pixel` is unchanged |
| FFT.WrapSlotIsMod | trunk/xmipp/libraries/data/fft.cpp:449-457 | the `if j < dim ... else j - dim` slot is `(i + window_size) mod (2*window_size+1)` |
| FFT.UnwrapIsMod | trunk/xmipp/libraries/data/fft.cpp:449-457 | slot `k` receives coefficient `(k + window_size + 1) mod dim`, so every slot has exactly one source |
| FFT.WrapCoefficients | trunk/xmipp/libraries/data/fft.cpp:435-457 | the reorder is a cyclic rotation: coefficient `i` lands in slot `(i+window_size) mod dim` and every slot is written, by its unique coefficient |
| FFT.ShiftUpdate | trunk/xmipp/libraries/data/fft.cpp:218-221 | the three-multiplication update `(ac-bd, (a+b)(c+d)-ac-bd)` is the complex product `(a+ib)(c+id)` |
| FFT.ShiftFFT1D | trunk/xmipp/libraries/data/fft.cpp:206-223 | every element `j` becomes its phase factor times its old value |
| FFT.Pos | trunk/xmipp/libraries/data/fft.cpp:238-244 | the row-major position `i*XSIZE+j` of an element lies inside the buffer |
| FFT.PosBefore | trunk/xmipp/libraries/data/fft.cpp:231-244 | every element of an earlier row sits before the start of a later row |
| FFT.ShiftFFT2D | trunk/xmipp/libraries/data/fft.cpp:225-246 | every element `(i, j)`, at row-major index `i*XSIZE+j`, is multiplied by its phase factor exactly once |
| Text.TokensOfJoin | trunk/Xmipp/Lib/XmippInterface/Src/xmippCCLattice_IO.cc:86-91 | a word followed by separators is the first token, and tokenising continues with the rest |
| Text.TokensOfSpaced | trunk/Xmipp/Lib/XmippInterface/Src/xmippCCLattice_IO.cc:185-191 | words written separated by single spaces tokenise back to the same words |
| Text.PaddedValue | pyworkflow/em/packages/spider/protocol/protocol_projmatch.py:167 | zero padding a decimal rendering keeps its value |
| Text.Format03Injective | pyworkflow/em/packages/spider/protocol/protocol_projmatch.py:167 | `%03d` renders different numbers differently, negative numbers included |
| CCLattice.CCLatticeIO.constructor | trunk/Xmipp/Lib/XmippInterface/Src/xmippCCLattice_IO.cc:57-64 | `a` and `b` are zero 2-vectors, `cc_max` and `cc_peak_factor` are zero, no spot is held |
| CCLattice.Kept | trunk/Xmipp/Lib/XmippInterface/Src/xmippCCLattice_IO.cc:128-146 | a body line adds a record exactly when it is non-empty, its three tokens convert, `x != 0`, `y != 0` and `cc > Th` (strict); the record holds the loop counters as indices; a failing line adds nothing partial |
| CCLattice.ScanRowSound | trunk/Xmipp/Lib/XmippInterface/Src/xmippCCLattice_IO.cc:127-141 | every record of a row has that row's index, a column in the scanned range, and passed the filter |
| CCLattice.ScanRowOrdered | trunk/Xmipp/Lib/XmippInterface/Src/xmippCCLattice_IO.cc:127-141 | within a row the records are in strictly increasing column order |
| CCLattice.ScanRowMembers | trunk/Xmipp/Lib/XmippInterface/Src/xmippCCLattice_IO.cc:127-141 | a record is in a row's output exactly when some cell of the row has a line that `Kept` turns into it |
| CCLattice.UnterminatedLastLineRepeats | trunk/Xmipp/Lib/XmippInterface/Src/xmippCCLattice_IO.cc:127-129 | past the end of a file whose last line has no newline, every cell reads that line again and keeps its spot once more; after a final newline the next cell reads an empty line and keeps nothing |
| CCLattice.ScanRowsSound | trunk/Xmipp/Lib/XmippInterface/Src/xmippCCLattice_IO.cc:126-141 | every record of the body lies in the `[min_i,max_i] x [min_j,max_j]` window and passed the filter |
| CCLattice.ScanRowsOrdered | trunk/Xmipp/Lib/XmippInterface/Src/xmippCCLattice_IO.cc:126-141 | the body's records are in strictly increasing row-major `(x_index, y_index)` order |
| CCLattice.CCLatticeIO.Push | trunk/Xmipp/Lib/XmippInterface/Src/xmippCCLattice_IO.cc:136-140 | one spot is appended to all five vectors, which stay in step |
| CCLattice.CCLatticeIO.ReadCell | trunk/Xmipp/Lib/XmippInterface/Src/xmippCCLattice_IO.cc:128-146 | one cell's line appends exactly the record `Kept` gives, or nothing |
| CCLattice.CCLatticeIO.ReadRow | trunk/Xmipp/Lib/XmippInterface/Src/xmippCCLattice_IO.cc:127-148 | the inner loop consumes one line per column and appends the row's records after those already held |
| CCLattice.CCLatticeIO.ReadBody | trunk/Xmipp/Lib/XmippInterface/Src/xmippCCLattice_IO.cc:124-148 | the nested loop, x outer and y inner, appends the body's records after those already held, from line 9 on |
| CCLattice.CCLatticeIO.Read | trunk/Xmipp/Lib/XmippInterface/Src/xmippCCLattice_IO.cc:67-164 | error 1601 exactly when the file cannot be opened or a header token is missing or malformed, and then no spot is added and the header is unchanged; otherwise the header is lines 6-8 and the kept body records are appended, never clearing earlier ones, each cell past the end of the file reading what `getline` leaves (the last line again when it has no newline, an empty line otherwise); the vectors stay in step |
| CCLattice.RecordLines | trunk/Xmipp/Lib/XmippInterface/Src/xmippCCLattice_IO.cc:199-207 | one written line per record, in record order |
| CCLattice.LatticeLineReadsBack | trunk/Xmipp/Lib/XmippInterface/Src/xmippCCLattice_IO.cc:185-187 | the written line `dim0 dim1 O0 O1 a0 a1` parses back to the same values, provided every header real prints at its precision (five decimals) as a token that converts back to it (`HeaderExact`) |
| CCLattice.WindowLineReadsBack | trunk/Xmipp/Lib/XmippInterface/Src/xmippCCLattice_IO.cc:189-191 | the written line `b0 b1 min_i max_i min_j max_j` parses back to the same values, provided every header real prints at its precision (five decimals) as a token that converts back to it (`HeaderExact`) |
| CCLattice.WriteThenReadHeader | trunk/Xmipp/Lib/XmippInterface/Src/xmippCCLattice_IO.cc:179-194 | the header lines `write` produces are read back by `read` as the same lattice parameters, whatever records follow, provided every header real prints at its precision (five decimals, one for `cc_max`) as a token that converts back to it (`HeaderExact`) |
| CCLattice.RecordLineTokens | trunk/Xmipp/Lib/XmippInterface/Src/xmippCCLattice_IO.cc:199-206 | a written record line has five tokens: both indices, `x`, `y` and `cc` |
| CCLattice.WrittenSpotMisread | trunk/Xmipp/Lib/XmippInterface/Src/xmippCCLattice_IO.cc:199-207 | `read` takes a written record line's indices as `x` and `y` and its `x` as `cc`, so write-then-read is not the identity on the body |
| CCLattice.CCLatticeIO.Write | trunk/Xmipp/Lib/XmippInterface/Src/xmippCCLattice_IO.cc:168-210 | error 1601 exactly when the file cannot be opened; otherwise the eight header lines followed by one line per spot |
| CCLattice.AppendRecordLines | trunk/Xmipp/Lib/XmippInterface/Src/xmippCCLattice_IO.cc:199-207 | the record loop appends the record lines, in order, after the lines already written |
| CCLattice.CCLatticeIO.ComputeShifts | trunk/Xmipp/Lib/XmippInterface/Src/xmippCCLattice_IO.cc:214-234 | one shift per spot is appended, keeping the caller's earlier X shifts; each spot is its lattice point `O + i*a + j*b` plus its shift; `Y_shift` must start empty for the printing loop to stay in bounds |
| Config.NodeConfig.constructor | pyworkflow/config.py:389-396 | a missing coordinate is 0; the flags default to unselected and expanded |
| Config.NodeConfig.SetX | pyworkflow/config.py:414-415 | sets `x` and changes nothing else |
| Config.NodeConfig.SetY | pyworkflow/config.py:420-421 | sets `y` and changes nothing else |
| Config.NodeConfig.SetPosition | pyworkflow/config.py:426-431 | `getPosition` then returns the pair set; the id and the flags are untouched |
| Config.NodeConfig.SetSelected | pyworkflow/config.py:433-434 | sets the selection flag and changes nothing else |
| Config.NodeConfig.SetExpanded | pyworkflow/config.py:439-440 | sets the expansion flag and changes nothing else |
| Config.DictOfLast | pyworkflow/config.py:467-470 | the index rebuilt from a list holds exactly the ids of its nodes, each mapped to the last node with that id |
| Config.NodeConfigList.constructor | pyworkflow/config.py:454-456 | the list and the index start empty and in step |
| Config.NodeConfigList.AddNode | pyworkflow/config.py:461-465 | a fresh node with the given id and options is appended and indexed under its id, so `getNode(id)` returns it; an id added twice stays twice in the list while the index holds the latest; the index stays in step |
| Config.NodeConfigList.UpdateDict | pyworkflow/config.py:467-470 | the index becomes the one the list induces, later nodes winning; the list is unchanged |
| Config.NodeConfigList.Clear | pyworkflow/config.py:472-474 | the list and the index are both emptied |
| Config.GetNodeFindsLast | pyworkflow/config.py:458-459 | in a list in step with its index, `getNode` finds a node exactly for the ids in the list, the last one added, and returns None otherwise |
| Config.MenuConfig.constructor | pyworkflow/config.py:336-374 | the item's fields are the arguments, it has no children, and `openItem` is the given value, else false for a plain menu and `tag != 'protocol_base'` for a protocol menu |
| Config.MenuConfig.AddSubMenu | pyworkflow/config.py:353-383 | exactly one fresh, empty child of the parent's class is appended and returned; for a protocol menu a missing icon becomes `python_file.gif` for tag `protocol`, `class_obj.gif` for `protocol_base`, none otherwise; length grows by one and the menu is not empty |
| Config.Add | pyworkflow/config.py:136-141 | the item is appended to the menu as one new sub-menu whose sub-tree has the shape, fields and child order of the nested `children` lists |
| Config.BuildProtocolMenu | pyworkflow/config.py:152-157 | a protocol menu named after the option whose children mirror the option's JSON list, in order |
| Config.UnescapeNoMarker | pyworkflow/config.py:86 | after replacing every `%_(` by `%(` no `%_(` remains |
| Config.UnescapeIdentity | pyworkflow/config.py:86 | a value without `%_(` is returned unchanged |
| Config.HostGet | pyworkflow/config.py:84-88 | an absent option gives the default; a present one gives its value with every `%_(` rewritten to `%(` (`Unescape`), so no `%_(` is left, and unchanged when it had none |
| Config.FillOptions | pyworkflow/config.py:182-186 | the options set are exactly the table's, each holding the file's value when present and its default otherwise |
| Config.WebConf | pyworkflow/config.py:182-193 | the six `WEB` options, each from the file or its default |
| Config.EmailConf | pyworkflow/config.py:219-231 | the six `EMAIL` options, each from the file or its default |
| Config.SelectSettings | pyworkflow/config.py:47-63 | settings load only when exactly one object is stored; none and more than one are errors, the latter reporting the count |
| SpiderProjMatch.Path | pyworkflow/em/packages/spider/protocol/protocol_projmatch.py:119-121 | the result is `'../p'` in quotes for a relative path |
| SpiderProjMatch.GroupFileInjective | pyworkflow/em/packages/spider/protocol/protocol_projmatch.py:167 | distinct (group, kind) pairs give distinct `group%03d_%s.stk` names, so no two groups share a file |
| SpiderProjMatch.AlignmentRow | pyworkflow/em/packages/spider/protocol/protocol_projmatch.py:262-265 | an alignment row has 15 values: the counter at index 4, -1 at indices 3 and 5, 0 elsewhere |
| SpiderProjMatch.DefocusGroupInfo.constructor | pyworkflow/em/packages/spider/protocol/protocol_projmatch.py:240-252 | a new group has its number, its `selfile`/`align`/`stack` file names from the template, no particles and open documents holding the two comment lines |
| SpiderProjMatch.DefocusGroupInfo.AddParticle | pyworkflow/em/packages/spider/protocol/protocol_projmatch.py:254-265 | the counter grows by one; the group's defocus is `(defocusU+defocusV)/2` of its first particle; the k-th particle goes to stack position k, the selfile line holds k and the alignment row carries k |
| SpiderProjMatch.DefocusGroupInfo.Close | pyworkflow/em/packages/spider/protocol/protocol_projmatch.py:267-269 | both documents are closed and their contents kept |
| SpiderProjMatch.FirstSeenLists | pyworkflow/em/packages/spider/protocol/protocol_projmatch.py:169-178 | the group keys, in order of first appearance, name every micrograph of the particles exactly once |
| SpiderProjMatch.OfGroupMembers | pyworkflow/em/packages/spider/protocol/protocol_projmatch.py:169-178 | a group holds exactly the particles of its micrograph |
| SpiderProjMatch.SumCountsIsTotal | pyworkflow/em/packages/spider/protocol/protocol_projmatch.py:178 | over the groups, the particle counts add up to the number of particles |
| SpiderProjMatch.AddToGroups | pyworkflow/em/packages/spider/protocol/protocol_projmatch.py:170-178 | one loop step keeps the invariant: one distinct group object per micrograph seen so far, each holding exactly that micrograph's particles; earlier groups are reused, new ones are fresh |
| SpiderProjMatch.AddToNewGroup | pyworkflow/em/packages/spider/protocol/protocol_projmatch.py:172-174 | a particle of an unseen micrograph gets a new group, keyed by its micrograph id, holding just it |
| SpiderProjMatch.AddToOldGroup | pyworkflow/em/packages/spider/protocol/protocol_projmatch.py:175-178 | a particle of a seen micrograph is added to its existing group; no group is created |
| SpiderProjMatch.GroupsExtend | pyworkflow/em/packages/spider/protocol/protocol_projmatch.py:172-174 | adding a new group for an unseen micrograph keeps the one-group-per-micrograph invariant |
| SpiderProjMatch.GroupParticles | pyworkflow/em/packages/spider/protocol/protocol_projmatch.py:166-178 | exactly one fresh group per distinct micrograph id, in order of first appearance, each holding that micrograph's particles in order |
| SpiderProjMatch.SummarizeGroup | pyworkflow/em/packages/spider/protocol/protocol_projmatch.py:184-186 | the summary row is the group's number, particle count and first-particle defocus, and the group is closed while groups closed before stay closed |
| SpiderProjMatch.WriteSummary | pyworkflow/em/packages/spider/protocol/protocol_projmatch.py:182-187 | one (number, counter, defocus) row per group and every group closed |
| SpiderProjMatch.WriteGroupFiles | pyworkflow/em/packages/spider/protocol/protocol_projmatch.py:158-187 | one group per distinct micrograph, each closed, each counter equal to its particle count, one summary row per group, and the counters summing to the number of particles |
| MLAlign2D.CMod | trunk/xmipp/libraries/reconstruction/ml_align2d.h:55 | C's `%` agrees with the mathematical remainder for non-negative operands and is in `(-n, 0]` for a negative dividend |
| MLAlign2D.WalkFrom | trunk/xmipp/libraries/reconstruction/ml_align2d.h:55 | a claim of `load` visits `refno, refno+1, ...` modulo `n_ref`, `load` indices in all |
| MLAlign2D.WalkInRange | trunk/xmipp/libraries/reconstruction/ml_align2d.h:55 | from a start in `[0, n_ref)` every visited index is in `[0, n_ref)` |
| MLAlign2D.WalkDistinct | trunk/xmipp/libraries/reconstruction/ml_align2d.h:55 | a claim of at most `n_ref` references visits each at most once |
| MLAlign2D.WalkLength | trunk/xmipp/libraries/reconstruction/ml_align2d.h:55 | the body runs `load` times per claim |
| MLAlign2D.TraceInRange | trunk/xmipp/libraries/reconstruction/ml_align2d.h:52-55 | when every claim starts in range, every index the loop visits is in range |
| MLAlign2D.TraceLength | trunk/xmipp/libraries/reconstruction/ml_align2d.h:54-55 | the body runs as often as the loads of the claims before the first non-positive one add up to |
| MLAlign2D.ThreadRefnoLoop | trunk/xmipp/libraries/reconstruction/ml_align2d.h:52-55 | the nested `while`/`for` visits exactly the walks of the claims in order and stops at the first load `<= 0` |
| MLAlign2D.Index | trunk/xmipp/libraries/reconstruction/ml_align2d.h:60-61 | every timing block's enumeration value is below `TB_TOTAL` |
| MLAlign2D.BlockAt | trunk/xmipp/libraries/reconstruction/ml_align2d.h:61 | every value below `TB_TOTAL` names the block with that value |
| MLAlign2D.BlockIndexRoundTrip | trunk/xmipp/libraries/reconstruction/ml_align2d.h:61 | the enumeration numbers the 18 blocks one to one |
| MLAlign2D.Elapsed | trunk/xmipp/libraries/reconstruction/ml_align2d.h:96-97 | the increment `(sec difference)*1000000 + (usec difference)` is the time between the two readings in microseconds, non-negative for ordered readings |
| MLAlign2D.CDiv | trunk/xmipp/libraries/reconstruction/ml_align2d.h:106 | C's integer `/` truncates toward zero |
| MLAlign2D.CDivMean | trunk/xmipp/libraries/reconstruction/ml_align2d.h:106 | the printed mean is the floor of total over count for non-negative totals |
| MLAlign2D.JMTimer.constructor | trunk/xmipp/libraries/reconstruction/ml_align2d.h:74-77 | a new timer has every count and every total at zero |
| MLAlign2D.JMTimer.Clear | trunk/xmipp/libraries/reconstruction/ml_align2d.h:79-83 | every count and total of the 18 blocks is zero |
| MLAlign2D.JMTimer.Tic | trunk/xmipp/libraries/reconstruction/ml_align2d.h:85-90 | the block's start time is set and its count grows by one; every other entry is unchanged |
| MLAlign2D.JMTimer.Toc | trunk/xmipp/libraries/reconstruction/ml_align2d.h:92-98 | only the block's total grows, by the time since its start |
| MLAlign2D.JMTimer.PrintTimes | trunk/xmipp/libraries/reconstruction/ml_align2d.h:100-111 | one line per block with its name and truncated mean, needing every count non-zero; the table is cleared exactly when `doClear` is set |
| MLAlign2D.TimesLinesOf | trunk/xmipp/libraries/reconstruction/ml_align2d.h:104-107 | the loop produces the 18 lines in block order |
| MLAlign2D.ClearAsWrittenOverruns | trunk/xmipp/libraries/reconstruction/ml_align2d.h:79-83 | as written, `clear` writes 7 indices past the 18-entry arrays |
| MLAlign2D.ClearCorrectedInRange | trunk/xmipp/libraries/reconstruction/ml_align2d.h:60 | bounded by `TB_TOTAL`, `clear` writes exactly the indices of the table |
| MLAlign2D.TaskCode | trunk/xmipp/libraries/reconstruction/ml_align2d.h:116-121 | task codes are 0 to 5, and 0 is exactly `TH_EXIT` |
| MLAlign2D.TaskOfCode | trunk/xmipp/libraries/reconstruction/ml_align2d.h:116-121 | a code names a task exactly when it is 0 to 5 |
| MLAlign2D.TaskCodeRoundTrip | trunk/xmipp/libraries/reconstruction/ml_align2d.h:116-121 | codes and tasks correspond one to one |
| AngularAccuracyPCA.ExactlyOneRank | software/em/xmipp/libraries/reconstruction/angular_accuracy_pca.cpp:72-74 | block `i` belongs to a rank exactly when the rank is `(i+1) % Nprocessors`, which is in `[0, Nprocessors)` |
| AngularAccuracyPCA.DefaultRankTakesAll | software/em/xmipp/libraries/reconstruction/angular_accuracy_pca.cpp:29-33 | with the constructor's defaults (rank 0 of 1) every block is processed |
| AngularAccuracyPCA.NumPCAsAsWrittenDrops | software/em/xmipp/libraries/reconstruction/angular_accuracy_pca.cpp:81-86 | as written, 19 rows get two components and 20 rows get one |
| AngularAccuracyPCA.NumPCAs | software/em/xmipp/libraries/reconstruction/angular_accuracy_pca.cpp:81-86 | the number of components is 1 to 3: 3 exactly above 20 rows, 1 exactly below 5 |
| AngularAccuracyPCA.NumPCAsMonotone | software/em/xmipp/libraries/reconstruction/angular_accuracy_pca.cpp:81-86 | more rows never give fewer components, and the choice agrees with the source everywhere but at 20 rows |
| AngularAccuracyPCA.AssignedMembers | software/em/xmipp/libraries/reconstruction/angular_accuracy_pca.cpp:72-88 | a block is processed by a rank exactly when it is that rank's and has more than one row, with the number of components its size gives (the corrected `NumPCAs`) |
| AngularAccuracyPCA.BlocksPartitioned | software/em/xmipp/libraries/reconstruction/angular_accuracy_pca.cpp:72-79 | every block of more than one row is processed by rank `(i+1) % Nprocessors` and by no other |
| AngularAccuracyPCA.FallbackAsWrittenKeepsMinusOne | software/em/xmipp/libraries/reconstruction/angular_accuracy_pca.cpp:191-195 | as written, after `--dim -1` the height stays -1 and the target size is negative |
| AngularAccuracyPCA.Fallback | software/em/xmipp/libraries/reconstruction/angular_accuracy_pca.cpp:191-195 | with `newXdim == -1` the sizes become the volume's, otherwise they are kept |
| AngularAccuracyPCA.FallbackIdempotent | software/em/xmipp/libraries/reconstruction/angular_accuracy_pca.cpp:191-195 | the fallback applied again changes nothing, so every block of a process is scaled alike |
| AngularAccuracyPCA.FallbackPositive | software/em/xmipp/libraries/reconstruction/angular_accuracy_pca.cpp:191-195 | from `--dim -1` the corrected fallback gives a positive size, and applying it again changes nothing |
| AngularAccuracyPCA.ProcessedRows | software/em/xmipp/libraries/reconstruction/angular_accuracy_pca.cpp:204-240 | a pass uses exactly the enabled rows, in increasing order, with `imgno` equal to the row's position and the row's own flip |
| AngularAccuracyPCA.FlipPass | software/em/xmipp/libraries/reconstruction/angular_accuracy_pca.cpp:204-240 | the counter ends at the number of rows, the rows used are those of `ProcessedRows`, and `mirror` ends as the flip of the last enabled row |
| AngularAccuracyPCA.LastFlipSet | software/em/xmipp/libraries/reconstruction/angular_accuracy_pca.cpp:204-217 | when some row is enabled the first pass leaves `mirror` set |
| AngularAccuracyPCA.StaleMirrorPass | software/em/xmipp/libraries/reconstruction/angular_accuracy_pca.cpp:269-328 | as written, the second pass ends its counter at the number of rows and mirrors every enabled row by the single value left from the first pass |
| AngularAccuracyPCA.WithMirrorAgrees | software/em/xmipp/libraries/reconstruction/angular_accuracy_pca.cpp:269-298 | one mirror value for all rows agrees with the per-row flips exactly when every enabled row has that flip |
| AngularAccuracyPCA.StaleMirrorMisflips | software/em/xmipp/libraries/reconstruction/angular_accuracy_pca.cpp:289 | with rows (flipped, not flipped) the second pass as written does not mirror the first row |
| AngularAccuracyPCA.ProgAngularAccuracyPCA.constructor | software/em/xmipp/libraries/reconstruction/angular_accuracy_pca.cpp:29-33 | rank 0 of one process, with an empty partial result |
| AngularAccuracyPCA.ProgAngularAccuracyPCA.ReadParams | software/em/xmipp/libraries/reconstruction/angular_accuracy_pca.cpp:41-42 | both target sizes are `--dim` |
| AngularAccuracyPCA.ProgAngularAccuracyPCA.ObtainPCAs | software/em/xmipp/libraries/reconstruction/angular_accuracy_pca.cpp:180-240 | the sizes follow the corrected fallback; each of the three passes ends its counter at the number of rows and uses the enabled rows at their positions with their own flips |
| AngularAccuracyPCA.ProgAngularAccuracyPCA.Run | software/em/xmipp/libraries/reconstruction/angular_accuracy_pca.cpp:72-100 | the rank processes exactly its blocks of more than one row, in order, with their numbers of components (the corrected `NumPCAs`), and appends exactly their rows to the partial result; the image sizes are those of the fallback once a block was processed and untouched otherwise |

## Left out
- CCLattice.WriteThenReadHeader: `write` prints `O`, `a` and `b` with five fixed decimals and `cc_max` with one, so a header real that does not print exactly (`cc_max = 0.87` is written as `0.9`, which also moves the threshold `Th`) does not read back; the round trip is proved only for values that print exactly (`HeaderExact`).

- File and stream I/O, `ConfigParser`, `json`, `SqliteMapper`, `SpiderDocFile`, `ImageHandler.convert`, `os.environ` and process exits: files are sequences of lines (the `.cor` file read also records whether its last line ends with a newline), documents are appended logs, configuration sections are maps.
- `gettimeofday` and console output: the clock reading is a parameter of `Tic`/`Toc`, and the printed lines are returned as strings.
- Floating point: doubles and floats are exact reals, so rounding (including the single-precision `Th` of `read`) is not modelled; the trigonometry of `ShiftFFT` and the SSNR ratio arithmetic are parameters (`factor`, `ringRatio`).
- `AtoI`/`AtoD` and fixed-precision rendering of reals are parameters; lines are split on spaces, tabs and newlines.
- The Fourier transform wrappers, `FFT_magnitude`/`FFT_phase`, `CenterOriginFFT`, the 3D `ShiftFFT`, `savgol` and `series_convolution`: numeric library calls not shown here.
- CCLattice.CCLatticeIO.Read: when a later header token is malformed, the source has already overwritten the fields read before it; the model leaves the header unchanged on error.
- The line counter and skip message of `read` and the DEBUG printing of `read` and `compute_shifts` (the printing loop's bound is kept as the requirement that `Y_shift` starts empty).
- `NodeConfig` JSON serialisation (`_convertValue`, `getObjValue`) and the `pwobj` persistence of the lists.
- Config.MenuConfig.AddSubMenu: an explicit `icon=None` and an absent icon are one case in the model, so an explicit `None` on a protocol menu gets the tag's default icon where the source keeps `None`.
- Config.Add: the removal of `children` from the caller's dictionaries is not modelled; only the keyword arguments `text`, `value`, `icon`, `tag` and `openItem` are.
- The `getDict` host options, the other `HostConfig` fields and the `WEB_PROTOCOLS` table of the web configuration.
- SpiderProjMatch.WriteSummary: rows come in order of first appearance of the micrographs; the source iterates `groupDict.values()` in the dictionary's own order, which the model fixes to that one.
- SpiderProjMatch.WriteGroupFiles: `_getExtraPath` is `dir + "/"`, and the `sel_group.stk` document is the returned summary.
- `getThreadRefnoJob`, the thread bodies and their synchronisation: the claims a thread receives are a parameter and the loop body records the visited index.
- MLAlign2D.JMTimer.Toc: `toc` is declared `int` but returns nothing; the model returns nothing.
- Integer widths: `counts` (`int`), `times` (`long int`), the `size_t` block index, `n_ref`, the `int` loop counters of `CCLattice_IO::read` (with `max_i` or `max_j` equal to `INT_MAX` the test `x_index <= max_i` never fails) and the `int` squares of `distancia2` are unbounded integers, so overflow is not modelled.
- The uninitialised `tags[]` member of `JMTimer` (the printed names are the local array of `printTimes`).
- The projection, rotation, scaling and PCA numerics of `obtainPCAs` (including the `numPCAs` argument, used only by the PCA learning), the `recons`/Z-score evaluation, the MPI `synchronize`/`gatherResults`, the progress bar and the result averaging after the block loop.
- `angular_accuracy_pca.h` is not part of this model: `newXdim`/`newYdim` are taken to be signed integers, as their comparison with -1 implies.
- AngularAccuracyPCA.ProgAngularAccuracyPCA.ObtainPCAs: models the passes with the findings below corrected; the as-written second pass is `StaleMirrorPass`.
- AngularAccuracyPCA.AssignedMembers: uses the corrected `NumPCAs`, so a block of exactly 20 rows is listed with 2 components where the source passes 1 (`NumPCAsAsWritten`).
- AngularAccuracyPCA.ProgAngularAccuracyPCA.Run: reports the corrected `NumPCAs`, so a block of exactly 20 rows gets 2 components where the source passes 1 (`NumPCAsAsWritten`); the image sizes follow the corrected `Fallback`, not `FallbackAsWritten`.

## Findings

| source | as written | input that shows it | evidently intended | confidence | as-written member | corrected member |
|---|---|---|---|---|---|---|
| trunk/xmipp/libraries/reconstruction/ml_align2d.h:81 | `clear` loops `i < 25` over `counts`/`times` of `TB_TOTAL` = 18 entries | any construction of a `JMTimer` writes indices 18 to 24 of both arrays | loop to `TB_TOTAL` | high; not executed | MLAlign2D.ClearAsWrittenOverruns | MLAlign2D.JMTimer.Clear |
| software/em/xmipp/libraries/reconstruction/angular_accuracy_pca.cpp:83 | two components only for `5 <= size < 20` | a block of 20 rows gets one component while 19 rows get two | two components for `5 <= size <= 20` | medium; not executed | AngularAccuracyPCA.NumPCAsAsWrittenDrops | AngularAccuracyPCA.NumPCAs |
| software/em/xmipp/libraries/reconstruction/angular_accuracy_pca.cpp:193-194 | `newXdim = Xdim; newXdim = Ydim;` | `--dim -1` leaves `newYdim` at -1 and scales to a negative size | `newXdim = Xdim; newYdim = Ydim;` | high; not executed | AngularAccuracyPCA.FallbackAsWrittenKeepsMinusOne | AngularAccuracyPCA.Fallback |
| software/em/xmipp/libraries/reconstruction/angular_accuracy_pca.cpp:289 | the second pass tests `mirror` without reading `MDL_FLIP` | rows (enabled, flipped) then (enabled, not flipped): the first row is not mirrored in the second pass | read `MDL_FLIP` per row, as the first and third passes do | medium; not executed | AngularAccuracyPCA.StaleMirrorMisflips | AngularAccuracyPCA.FlipPass |

=== FILE: angular_accuracy_pca.dfy ===
/** The control logic of the angular-accuracy validation by PCA
    (`angular_accuracy_pca.cpp`): which metadata blocks a process takes,
    how many PCA components a block gets, the image-size fallback, and the
    three passes of `obtainPCAs` over a block's rows, which skip disabled
    rows while keeping the image counter on the row position. Projection,
    rotation, scaling, the PCA itself and MPI are not modelled: a pass
    reports, per row it uses, the counter value and the mirror decision. */
module AngularAccuracyPCA {
  import opened Wrappers

  // ---------------------------------------------------------------------
  // Block distribution

  /** Block `i` belongs to process `rank` of `nProc`: `(i+1) % Nprocessors
      == rank`, in unsigned arithmetic (a negative rank matches no block). */
  predicate IsMine(i: nat, nProc: int, rank: int)
    requires nProc > 0
  {
    rank >= 0 && (i + 1) % nProc == rank
  }

  /** Each block belongs to exactly one rank in `[0, nProc)`: rank
      `(i + 1) % nProc`. */
  lemma ExactlyOneRank(i: nat, nProc: int, rank: int)
    requires nProc > 0
    ensures 0 <= (i + 1) % nProc < nProc && IsMine(i, nProc, (i + 1) % nProc)
    ensures IsMine(i, nProc, rank) <==> rank == (i + 1) % nProc
  {
  }

  /** With the constructor's defaults, rank 0 of one process, every block
      is processed. */
  lemma DefaultRankTakesAll(i: nat)
    ensures IsMine(i, 1, 0)
  {
  }

  /** The number of PCA components for a block of `size` rows, as
      written: size 20 falls through to one component. */
  function NumPCAsAsWritten(size: nat): nat {
    if size > 20 then 3
    else if size >= 5 && size < 20 then 2
    else 1
  }

  /** As written, the choice is not monotone: 19 rows get two components
      and 20 rows get one. */
  lemma NumPCAsAsWrittenDrops()
    ensures NumPCAsAsWritten(19) == 2 && NumPCAsAsWritten(20) == 1
    ensures NumPCAsAsWritten(19) > NumPCAsAsWritten(20)
  {
  }

  /** The number of PCA components with the gap at 20 closed: three above
      20 rows, two from 5 to 20, one below 5. */
  function NumPCAs(size: nat): (n: nat)
    ensures 1 <= n <= 3
    ensures size > 20 <==> n == 3
    ensures n == 1 <==> size < 5
  {
    if size > 20 then 3
    else if size >= 5 then 2
    else 1
  }

  /** More rows never give fewer components, and the choice agrees with
      the written one everywhere but at 20 rows. */
  lemma NumPCAsMonotone(a: nat, b: nat)
    requires a <= b
    ensures NumPCAs(a) <= NumPCAs(b)
    ensures a != 20 ==> NumPCAs(a) == NumPCAsAsWritten(a)
  {
  }

  /** What `run` does with the blocks one process owns: blocks with at
      most one row are skipped, the others are processed with their number
      of components. Entries are (block index, components). */
  function Assigned(blocks: seq<seq<MdRow>>, nProc: int, rank: int): seq<(nat, nat)>
    requires nProc > 0
  {
    if blocks == [] then []
    else
      var i := |blocks| - 1;
      Assigned(blocks[..i], nProc, rank)
        + (if IsMine(i, nProc, rank) && |blocks[i]| > 1 then [(i, NumPCAs(|blocks[i]|))] else [])
  }

  /** A block is in a rank's work exactly when it is that rank's and has
      more than one row, and it comes with its number of components. */
  lemma {:induction false} AssignedMembers(blocks: seq<seq<MdRow>>, nProc: int, rank: int, i: nat, n: nat)
    requires nProc > 0
    ensures (i, n) in Assigned(blocks, nProc, rank) <==>
      i < |blocks| && IsMine(i, nProc, rank) && |blocks[i]| > 1 && n == NumPCAs(|blocks[i]|)
  {
    if blocks != [] {
      var last := |blocks| - 1;
      AssignedMembers(blocks[..last], nProc, rank, i, n);
      if i < last {
        assert blocks[..last][i] == blocks[i];
      }
    }
  }

  /** Over the ranks of a run, every block with more than one row is
      processed by exactly one rank. */
  lemma BlocksPartitioned(blocks: seq<seq<MdRow>>, nProc: int, i: nat, r1: int, r2: int)
    requires nProc > 0 && i < |blocks| && |blocks[i]| > 1
    ensures (i, NumPCAs(|blocks[i]|)) in Assigned(blocks, nProc, (i + 1) % nProc)
    ensures ((i, NumPCAs(|blocks[i]|)) in Assigned(blocks, nProc, r1)
      && (i, NumPCAs(|blocks[i]|)) in Assigned(blocks, nProc, r2)) ==> r1 == r2
  {
    var n := NumPCAs(|blocks[i]|);
    AssignedMembers(blocks, nProc, (i + 1) % nProc, i, n);
    AssignedMembers(blocks, nProc, r1, i, n);
    AssignedMembers(blocks, nProc, r2, i, n);
  }

  // ---------------------------------------------------------------------
  // Image-size fallback

  /** `obtainPCAs` when `newXdim == -1`, as written: `newXdim` is set to
      Xdim and at once overwritten with Ydim, and `newYdim` is left as it
      was. */
  function FallbackAsWritten(newXdim: int, newYdim: int, xdim: int, ydim: int): (int, int) {
    if newXdim == -1 then (ydim, newYdim) else (newXdim, newYdim)
  }

  /** With `--dim -1` both sizes start at -1, so as written the images are
      resized to `Ydim * -1` pixels. */
  lemma FallbackAsWrittenKeepsMinusOne(xdim: int, ydim: int)
    requires xdim > 0 && ydim > 0
    ensures FallbackAsWritten(-1, -1, xdim, ydim).1 == -1
    ensures FallbackAsWritten(-1, -1, xdim, ydim).0 * FallbackAsWritten(-1, -1, xdim, ydim).1 < 0
  {
  }

  /** The fallback as evidently intended: no rescaling means the volume's
      own sizes, Xdim by Ydim. */
  function Fallback(newXdim: int, newYdim: int, xdim: int, ydim: int): (d: (int, int))
    ensures newXdim == -1 ==> d == (xdim, ydim)
    ensures newXdim != -1 ==> d == (newXdim, newYdim)
  {
    if newXdim == -1 then (xdim, ydim) else (newXdim, newYdim)
  }

  /** Starting from `--dim -1` (both sizes -1) the corrected fallback
      gives a positive image size, and it is idempotent. */
  lemma FallbackPositive(xdim: int, ydim: int)
    requires xdim > 0 && ydim > 0
    ensures Fallback(-1, -1, xdim, ydim).0 * Fallback(-1, -1, xdim, ydim).1 > 0
    ensures var d := Fallback(-1, -1, xdim, ydim); Fallback(d.0, d.1, xdim, ydim) == d
  {
    MulPositive(xdim, ydim);
  }

  /** Applying the fallback again changes nothing, whatever the sizes: a
      process that handles several blocks scales them all alike. */
  lemma FallbackIdempotent(newXdim: int, newYdim: int, xdim: int, ydim: int)
    ensures var d := Fallback(newXdim, newYdim, xdim, ydim); Fallback(d.0, d.1, xdim, ydim) == d
  {
  }

  lemma MulPositive(a: int, b: int)
    requires a > 0 && b > 0
    ensures a * b > 0
  {
  }

  // ---------------------------------------------------------------------
  // The passes of obtainPCAs

  /** A metadata row as the passes see it: `MDL_ENABLED` and `MDL_FLIP`. */
  datatype MdRow = MdRow(enabled: int, flip: bool)

  /** The rows a pass uses, each with the counter value at that row and
      the mirror decision taken for it, when each row's own flip is read. */
  function Processed(rows: seq<MdRow>): seq<(nat, bool)> {
    if rows == [] then []
    else
      var k := |rows| - 1;
      Processed(rows[..k]) + (if rows[k].enabled == -1 then [] else [(k, rows[k].flip)])
  }

  /** The same, when every row is mirrored according to one value. */
  function WithMirror(rows: seq<MdRow>, mirror: bool): seq<(nat, bool)> {
    if rows == [] then []
    else
      var k := |rows| - 1;
      WithMirror(rows[..k], mirror) + (if rows[k].enabled == -1 then [] else [(k, mirror)])
  }

  /** The value the `mirror` variable holds after a pass that reads each
      enabled row's flip, starting from `mirror`. */
  function LastFlip(rows: seq<MdRow>, mirror: Option<bool>): Option<bool> {
    if rows == [] then mirror
    else
      var k := |rows| - 1;
      if rows[k].enabled == -1 then LastFlip(rows[..k], mirror) else Some(rows[k].flip)
  }

  predicate Enabled(r: MdRow) {
    r.enabled != -1
  }

  /** Each used row is an enabled row, the counter at it is its position,
      and its mirror decision is its own flip; the positions increase, and
      every enabled row is used. */
  lemma ProcessedRows(rows: seq<MdRow>)
    ensures forall k :: 0 <= k < |Processed(rows)| ==>
      Processed(rows)[k].0 < |rows| && Enabled(rows[Processed(rows)[k].0])
      && Processed(rows)[k].1 == rows[Processed(rows)[k].0].flip
    ensures forall k, l :: 0 <= k < l < |Processed(rows)| ==> Processed(rows)[k].0 < Processed(rows)[l].0
    ensures forall p :: 0 <= p < |rows| && Enabled(rows[p]) ==> (p, rows[p].flip) in Processed(rows)
  {
    ProcessedSound(rows);
    ProcessedIncreasing(rows);
    ProcessedComplete(rows);
  }

  lemma {:induction false} ProcessedSound(rows: seq<MdRow>)
    ensures forall k :: 0 <= k < |Processed(rows)| ==>
      Processed(rows)[k].0 < |rows| && Enabled(rows[Processed(rows)[k].0])
      && Processed(rows)[k].1 == rows[Processed(rows)[k].0].flip
  {
    if rows != [] {
      var k := |rows| - 1;
      var init := rows[..k];
      ProcessedSound(init);
      assert forall p :: 0 <= p < k ==> init[p] == rows[p];
    }
  }

  lemma {:induction false} ProcessedIncreasing(rows: seq<MdRow>)
    ensures forall k :: 0 <= k < |Processed(rows)| ==> Processed(rows)[k].0 < |rows|
    ensures forall k, l :: 0 <= k < l < |Processed(rows)| ==> Processed(rows)[k].0 < Processed(rows)[l].0
  {
    if rows != [] {
      ProcessedIncreasing(rows[..|rows| - 1]);
    }
  }

  lemma {:induction false} ProcessedComplete(rows: seq<MdRow>)
    ensures forall p :: 0 <= p < |rows| && Enabled(rows[p]) ==> (p, rows[p].flip) in Processed(rows)
  {
    if rows != [] {
      var k := |rows| - 1;
      var init := rows[..k];
      ProcessedComplete(init);
      assert forall p :: 0 <= p < k ==> init[p] == rows[p];
    }
  }

  /** A pass that mirrors every row with one value agrees with the per-row
      decisions exactly when every enabled row has that flip. */
  lemma {:induction false} WithMirrorAgrees(rows: seq<MdRow>, mirror: bool)
    ensures WithMirror(rows, mirror) == Processed(rows) <==>
      forall p :: 0 <= p < |rows| && Enabled(rows[p]) ==> rows[p].flip == mirror
  {
    if rows != [] {
      var k := |rows| - 1;
      var init := rows[..k];
      WithMirrorAgrees(init, mirror);
      assert forall p :: 0 <= p < k ==> init[p] == rows[p];
      WithMirrorLength(init, mirror);
      if WithMirror(rows, mirror) == Processed(rows) {
        var a, b := WithMirror(init, mirror), Processed(init);
        if Enabled(rows[k]) {
          assert WithMirror(rows, mirror)[|a|] == (k, mirror);
          assert Processed(rows)[|b|] == (k, rows[k].flip);
        }
        assert a == WithMirror(rows, mirror)[..|a|];
        assert b == Processed(rows)[..|b|];
      }
    }
  }

  lemma {:induction false} WithMirrorLength(rows: seq<MdRow>, mirror: bool)
    ensures |WithMirror(rows, mirror)| == |Processed(rows)|
  {
    if rows != [] {
      WithMirrorLength(rows[..|rows| - 1], mirror);
    }
  }

  /** As written, the second pass never reads `MDL_FLIP` and mirrors every
      experimental image by the flip of the last enabled row of the first
      pass: with rows (flip on, flip off) the first row is not mirrored. */
  lemma StaleMirrorMisflips()
    ensures var rows := [MdRow(1, true), MdRow(1, false)];
      LastFlip(rows, None) == Some(false) && WithMirror(rows, false) != Processed(rows)
  {
    var rows := [MdRow(1, true), MdRow(1, false)];
    assert rows[..1] == [MdRow(1, true)];
    assert rows[..1][..0] == [];
    WithMirrorAgrees(rows, false);
  }

  /** One pass that reads each row's flip (the first and the third pass,
      and the second as intended): disabled rows only advance the counter;
      the counter ends at the number of rows. Returns the rows used and
      the last value of `mirror`. */
  method FlipPass(rows: seq<MdRow>, mirror0: Option<bool>) returns (imgno: nat, used: seq<(nat, bool)>, mirror: Option<bool>)
    ensures imgno == |rows|
    ensures used == Processed(rows)
    ensures mirror == LastFlip(rows, mirror0)
  {
    imgno, used, mirror := 0, [], mirror0;
    for k := 0 to |rows|
      invariant imgno == k
      invariant used == Processed(rows[..k])
      invariant mirror == LastFlip(rows[..k], mirror0)
    {
      assert rows[..k + 1][..k] == rows[..k];
      if rows[k].enabled == -1 {
        imgno := imgno + 1;
        continue;
      }
      mirror := Some(rows[k].flip);
      used := used + [(imgno, mirror.value)];
      imgno := imgno + 1;
    }
    assert rows[..|rows|] == rows;
  }

  /** The second pass as written: `mirror` is the value left by the first
      pass, used for every enabled row. */
  method StaleMirrorPass(rows: seq<MdRow>, mirror: Option<bool>) returns (imgno: nat, used: seq<(nat, bool)>)
    requires mirror.Some? || forall p :: 0 <= p < |rows| ==> !Enabled(rows[p])
    ensures imgno == |rows|
    ensures mirror.Some? ==> used == WithMirror(rows, mirror.value)
    ensures mirror.None? ==> used == []
  {
    imgno, used := 0, [];
    for k := 0 to |rows|
      invariant imgno == k
      invariant mirror.Some? ==> used == WithMirror(rows[..k], mirror.value)
      invariant mirror.None? ==> used == []
    {
      assert rows[..k + 1][..k] == rows[..k];
      if rows[k].enabled == -1 {
        imgno := imgno + 1;
        continue;
      }
      used := used + [(imgno, mirror.value)];
      imgno := imgno + 1;
    }
    assert rows[..|rows|] == rows;
  }

  /** The first pass leaves `mirror` set whenever some row is enabled, so
      the second pass never reads it uninitialised. */
  lemma {:induction false} LastFlipSet(rows: seq<MdRow>, p: nat)
    requires p < |rows| && Enabled(rows[p])
    ensures LastFlip(rows, None).Some?
  {
    var k := |rows| - 1;
    if p < k && !Enabled(rows[k]) {
      assert rows[..k][p] == rows[p];
      LastFlipSet(rows[..k], p);
    }
  }

  /** What the three passes of one `obtainPCAs` did: per pass, the final
      counter and the rows used with their mirror decisions. */
  datatype PassReport = PassReport(
    imgno1: nat, used1: seq<(nat, bool)>,
    imgno2: nat, used2: seq<(nat, bool)>,
    imgno3: nat, used3: seq<(nat, bool)>)

  /** The parts of `ProgAngularAccuracyPCA` the control logic touches: the
      process rank and count, the image size to scale to, and the rows
      gathered into the partial result. */
  class ProgAngularAccuracyPCA {
    var rank: int
    var nProcessors: int
    var newXdim: int
    var newYdim: int
    var partial: seq<MdRow>

    /** The constructor: rank 0 of one process. */
    constructor ()
      ensures rank == 0 && nProcessors == 1 && partial == []
    {
      rank, nProcessors := 0, 1;
      newXdim, newYdim := 0, 0;
      partial := [];
    }

    /** `readParams`: both sizes from `--dim`. */
    method ReadParams(dim: int)
      modifies this`newXdim, this`newYdim
      ensures newXdim == dim && newYdim == dim
    {
      newXdim := dim;
      newYdim := newXdim;
    }

    /** `obtainPCAs` on one block's rows, given the volume's sizes: the
        size fallback, then the three passes; the second pass reads each
        row's flip. */
    method ObtainPCAs(sf: seq<MdRow>, xdim: int, ydim: int) returns (report: PassReport)
      modifies this`newXdim, this`newYdim
      ensures (newXdim, newYdim) == Fallback(old(newXdim), old(newYdim), xdim, ydim)
      ensures report.imgno1 == |sf| && report.imgno2 == |sf| && report.imgno3 == |sf|
      ensures report.used1 == Processed(sf) && report.used2 == Processed(sf) && report.used3 == Processed(sf)
    {
      if newXdim == -1 {
        newXdim := xdim;
        newYdim := ydim;
      }
      var i1, u1, mirror := FlipPass(sf, None);
      var i2, u2, _ := FlipPass(sf, mirror);
      var i3, u3, _ := FlipPass(sf, mirror);
      report := PassReport(i1, u1, i2, u2, i3, u3);
    }

    /** The block loop of `run`: this process's blocks with more than one
        row are processed and their rows appended to the partial result;
        the per-block reports are returned with the block index and the
        number of components. */
    method Run(blocks: seq<seq<MdRow>>, xdim: int, ydim: int) returns (done: seq<(nat, nat)>)
      requires nProcessors > 0
      modifies this`newXdim, this`newYdim, this`partial
      ensures done == Assigned(blocks, nProcessors, rank)
      ensures partial == old(partial) + RowsOf(blocks, nProcessors, rank)
      ensures (newXdim, newYdim) ==
        if done == [] then (old(newXdim), old(newYdim))
        else Fallback(old(newXdim), old(newYdim), xdim, ydim)
    {
      var n, r := nProcessors, rank;
      ghost var start := partial;
      ghost var x0, y0 := newXdim, newYdim;
      done := [];
      for i := 0 to |blocks|
        invariant done == Assigned(blocks[..i], n, r)
        invariant partial == start + RowsOf(blocks[..i], n, r)
        invariant (newXdim, newYdim) == if done == [] then (x0, y0) else Fallback(x0, y0, xdim, ydim)
      {
        FallbackIdempotent(x0, y0, xdim, ydim);
        RunStep(blocks, i, n, r);
        if (i + 1) % n == r && r >= 0 {
          var md := blocks[i];
          if |md| > 1 {
            var numPCAs := NumPCAs(|md|);
            var _ := ObtainPCAs(md, xdim, ydim);
            AppendAssoc(start, RowsOf(blocks[..i], n, r), md);
            partial := partial + md;
            done := done + [(i as nat, numPCAs)];
          }
        }
      }
      assert blocks[..|blocks|] == blocks;
    }
  }


  /** The rows a process adds to its partial result: those of its blocks
      with more than one row, in block order. */
  function RowsOf(blocks: seq<seq<MdRow>>, nProc: int, rank: int): seq<MdRow>
    requires nProc > 0
  {
    if blocks == [] then []
    else
      var i := |blocks| - 1;
      RowsOf(blocks[..i], nProc, rank) + (if IsMine(i, nProc, rank) && |blocks[i]| > 1 then blocks[i] else [])
  }

  /** One more block extends a rank's work and rows by that block's share. */
  lemma RunStep(blocks: seq<seq<MdRow>>, i: nat, nProc: int, rank: int)
    requires nProc > 0 && i < |blocks|
    ensures Assigned(blocks[..i + 1], nProc, rank) == Assigned(blocks[..i], nProc, rank)
      + (if IsMine(i, nProc, rank) && |blocks[i]| > 1 then [(i, NumPCAs(|blocks[i]|))] else [])
    ensures RowsOf(blocks[..i + 1], nProc, rank) == RowsOf(blocks[..i], nProc, rank)
      + (if IsMine(i, nProc, rank) && |blocks[i]| > 1 then blocks[i] else [])
  {
    assert blocks[..i + 1][..i] == blocks[..i];
  }
}

=== FILE: cc_lattice.dfy ===
/** The MRC `.cor` correlation-lattice file of `CCLattice_IO`: a fixed
    eight-line header with the lattice parameters, then one line per lattice
    cell `(x_index, y_index)` in row-major order holding the measured spot
    `x y cc`. Reading keeps the spots above a correlation threshold in five
    parallel vectors; `compute_shifts` measures each kept spot against its
    ideal lattice position. Token-to-number conversion (`AtoI`, `AtoD`) and
    fixed-precision rendering of reals are parameters. */
module CCLattice {
  import opened Wrappers
  import Text

  /** One kept lattice spot: the cell indices and the measured position and
      correlation coefficient. */
  datatype Record = Record(xIndex: int, yIndex: int, x: real, y: real, cc: real)

  /** The lattice parameters of header lines 6 to 8. */
  datatype Header = Header(
    dim0: int, dim1: int, o0: real, o1: real, a0: real, a1: real,
    b0: real, b1: real, minI: int, maxI: int, minJ: int, maxJ: int,
    ccMax: real)

  /** `AtoI` and `AtoD` on one token; `None` is the error they report. */
  type IntParser = string -> Option<int>
  type RealParser = string -> Option<real>

  /** Rendering of a real in fixed notation with the given precision. */
  type FixedFormat = (real, nat) -> string

  /** A text file as `read` sees it: its lines without their line
      terminators, and whether the last line is terminated. */
  datatype CorFile = CorFile(lines: seq<string>, finalNewline: bool)

  /** Line `k` (from 0) as the `k + 1`-th `getline` leaves it. Past the end
      `getline` fails and leaves its string as it was, except for the one
      call that finds nothing after a final newline, which empties it: a
      file whose last line is terminated reads as empty lines from there
      on, a file whose last line is not repeats that line. */
  function LineAt(f: CorFile, k: nat): string {
    if k < |f.lines| then f.lines[k]
    else if f.finalNewline || f.lines == [] then ""
    else f.lines[|f.lines| - 1]
  }

  /** Token `k` of a line converted to an integer; a missing token is an
      error like a malformed one. */
  function IntField(ts: seq<string>, k: nat, toInt: IntParser): Option<int> {
    if k < |ts| then toInt(ts[k]) else None
  }

  function RealField(ts: seq<string>, k: nat, toReal: RealParser): Option<real> {
    if k < |ts| then toReal(ts[k]) else None
  }

  /** Header line 6: `dim0 dim1 O0 O1 a0 a1`. */
  function ParseLatticeLine(ts: seq<string>, toInt: IntParser, toReal: RealParser): Option<(int, int, real, real, real, real)> {
    var dim0, dim1 := IntField(ts, 0, toInt), IntField(ts, 1, toInt);
    var o0, o1 := RealField(ts, 2, toReal), RealField(ts, 3, toReal);
    var a0, a1 := RealField(ts, 4, toReal), RealField(ts, 5, toReal);
    if dim0.Some? && dim1.Some? && o0.Some? && o1.Some? && a0.Some? && a1.Some?
    then Some((dim0.value, dim1.value, o0.value, o1.value, a0.value, a1.value))
    else None
  }

  /** Header line 7: `b0 b1 min_i max_i min_j max_j`. */
  function ParseWindowLine(ts: seq<string>, toInt: IntParser, toReal: RealParser): Option<(real, real, int, int, int, int)> {
    var b0, b1 := RealField(ts, 0, toReal), RealField(ts, 1, toReal);
    var minI, maxI := IntField(ts, 2, toInt), IntField(ts, 3, toInt);
    var minJ, maxJ := IntField(ts, 4, toInt), IntField(ts, 5, toInt);
    if b0.Some? && b1.Some? && minI.Some? && maxI.Some? && minJ.Some? && maxJ.Some?
    then Some((b0.value, b1.value, minI.value, maxI.value, minJ.value, maxJ.value))
    else None
  }

  /** The header: lines 1-5 are skipped, line 6 holds the lattice size,
      origin and first vector, line 7 the second vector and the index
      window, line 8 `cc_max`. `None` when a token is missing or
      malformed. */
  function ParseHeader(f: CorFile, toInt: IntParser, toReal: RealParser): Option<Header> {
    var l6 := ParseLatticeLine(Text.Tokens(LineAt(f, 5)), toInt, toReal);
    var l7 := ParseWindowLine(Text.Tokens(LineAt(f, 6)), toInt, toReal);
    var l8 := RealField(Text.Tokens(LineAt(f, 7)), 0, toReal);
    if l6.Some? && l7.Some? && l8.Some? then
      var (dim0, dim1, o0, o1, a0, a1) := l6.value;
      var (b0, b1, minI, maxI, minJ, maxJ) := l7.value;
      Some(Header(dim0, dim1, o0, o1, a0, a1, b0, b1, minI, maxI, minJ, maxJ, l8.value))
    else None
  }

  /** The correlation threshold `Th = cc_peak_factor * cc_max`. */
  function Threshold(ccPeakFactor: real, ccMax: real): real {
    ccPeakFactor * ccMax
  }

  /** The `x y cc` values of a body line; `None` when a token is missing or
      malformed. Further tokens are ignored. */
  function ParseSpot(line: string, toReal: RealParser): Option<(real, real, real)> {
    var ts := Text.Tokens(line);
    var x, y, cc := RealField(ts, 0, toReal), RealField(ts, 1, toReal), RealField(ts, 2, toReal);
    if x.Some? && y.Some? && cc.Some? then Some((x.value, y.value, cc.value)) else None
  }

  /** The filter applied to a parsed spot: both coordinates non-zero and
      the coefficient strictly above the threshold. */
  predicate Accepts(x: real, y: real, cc: real, th: real) {
    x != 0.0 && y != 0.0 && cc > th
  }

  /** The record that body line `line`, read for cell `(xi, yj)`, adds:
      none for an empty line, a line that fails to parse, or a spot the
      filter rejects. */
  function Kept(line: string, xi: int, yj: int, th: real, toReal: RealParser): (r: Option<Record>)
    ensures r.Some? <==>
      |line| != 0 && ParseSpot(line, toReal).Some? &&
      Accepts(ParseSpot(line, toReal).value.0, ParseSpot(line, toReal).value.1, ParseSpot(line, toReal).value.2, th)
    ensures r.Some? ==>
      r.value == Record(xi, yj, ParseSpot(line, toReal).value.0, ParseSpot(line, toReal).value.1, ParseSpot(line, toReal).value.2)
  {
    if |line| == 0 then None
    else match ParseSpot(line, toReal)
      case None => None
      case Some((x, y, cc)) => if Accepts(x, y, cc, th) then Some(Record(xi, yj, x, y, cc)) else None
  }

  function AsSeq(r: Option<Record>): seq<Record> {
    if r.Some? then [r.value] else []
  }

  /** Records of the cells `(xi, yj)`, ..., `(xi, maxJ)`, reading one line
      per cell from line `k` on. */
  function ScanRow(f: CorFile, k: nat, xi: int, yj: int, maxJ: int, th: real, toReal: RealParser): seq<Record>
    decreases maxJ - yj + 1
  {
    if yj > maxJ then []
    else AsSeq(Kept(LineAt(f, k), xi, yj, th, toReal)) + ScanRow(f, k + 1, xi, yj + 1, maxJ, th, toReal)
  }

  /** Number of cells in a row `min_j..max_j`. */
  function Width(minJ: int, maxJ: int): nat {
    if maxJ >= minJ then maxJ - minJ + 1 else 0
  }

  /** Records of rows `xi..max_i`, row by row, from line `k` on. */
  function ScanRows(f: CorFile, k: nat, xi: int, h: Header, th: real, toReal: RealParser): seq<Record>
    decreases h.maxI - xi + 1
  {
    if xi > h.maxI then []
    else ScanRow(f, k, xi, h.minJ, h.maxJ, th, toReal) + ScanRows(f, k + Width(h.minJ, h.maxJ), xi + 1, h, th, toReal)
  }

  /** The records of the whole body, which starts at line 9. */
  function Body(f: CorFile, h: Header, th: real, toReal: RealParser): seq<Record> {
    ScanRows(f, 8, h.minI, h, th, toReal)
  }

  /** `p` comes strictly before `q` in row-major cell order. */
  predicate Before(p: Record, q: Record) {
    p.xIndex < q.xIndex || (p.xIndex == q.xIndex && p.yIndex < q.yIndex)
  }

  /** The records are in strictly increasing row-major cell order. */
  predicate Ordered(s: seq<Record>) {
    forall p, q :: 0 <= p < q < |s| ==> Before(s[p], s[q])
  }

  /** Every record of a row belongs to that row, to a later column, and
      passed the filter. */
  lemma {:induction false} ScanRowSound(f: CorFile, k: nat, xi: int, yj: int, maxJ: int, th: real, toReal: RealParser)
    ensures forall r :: r in ScanRow(f, k, xi, yj, maxJ, th, toReal) ==>
      r.xIndex == xi && yj <= r.yIndex <= maxJ && Accepts(r.x, r.y, r.cc, th)
    decreases maxJ - yj + 1
  {
    if yj <= maxJ {
      ScanRowSound(f, k + 1, xi, yj + 1, maxJ, th, toReal);
    }
  }

  /** Within a row the records are in strictly increasing column order. */
  lemma {:induction false} ScanRowOrdered(f: CorFile, k: nat, xi: int, yj: int, maxJ: int, th: real, toReal: RealParser)
    ensures Ordered(ScanRow(f, k, xi, yj, maxJ, th, toReal))
    decreases maxJ - yj + 1
  {
    if yj <= maxJ {
      var rest := ScanRow(f, k + 1, xi, yj + 1, maxJ, th, toReal);
      ScanRowOrdered(f, k + 1, xi, yj + 1, maxJ, th, toReal);
      ScanRowSound(f, k + 1, xi, yj + 1, maxJ, th, toReal);
      var first := AsSeq(Kept(LineAt(f, k), xi, yj, th, toReal));
      assert ScanRow(f, k, xi, yj, maxJ, th, toReal) == first + rest;
      OrderedConcat(first, rest);
    }
  }

  /** Two ordered runs, every record of the first before every record of
      the second, make one ordered run. */
  lemma OrderedConcat(a: seq<Record>, b: seq<Record>)
    requires Ordered(a) && Ordered(b)
    requires forall p, q :: p in a && q in b ==> Before(p, q)
    ensures Ordered(a + b)
  {
    var s := a + b;
    forall p, q | 0 <= p < q < |s|
      ensures Before(s[p], s[q])
    {
      if q < |a| {
        assert s[p] == a[p] && s[q] == a[q];
      } else if p < |a| {
        assert s[p] == a[p] && s[p] in a;
        assert s[q] == b[q - |a|] && s[q] in b;
      } else {
        assert s[p] == b[p - |a|] && s[q] == b[q - |a|];
      }
    }
  }

  /** The record cell `(xi, c)` of a row scanned from cell `(xi, yj)` and
      line `k` yields: its line is `k + (c - yj)`. */
  function CellRecord(f: CorFile, k: nat, xi: int, yj: int, c: int, th: real, toReal: RealParser): Option<Record>
    requires yj <= c
  {
    Kept(LineAt(f, k + (c - yj)), xi, c, th, toReal)
  }

  /** A cell's line contributes its record to the row exactly when `Kept`
      accepts it: no accepted spot is lost and nothing else is added. */
  lemma ScanRowMembers(f: CorFile, k: nat, xi: int, yj: int, maxJ: int, th: real, toReal: RealParser, r: Record)
    ensures r in ScanRow(f, k, xi, yj, maxJ, th, toReal) <==>
      exists c :: yj <= c <= maxJ && CellRecord(f, k, xi, yj, c, th, toReal) == Some(r)
  {
    if r in ScanRow(f, k, xi, yj, maxJ, th, toReal) {
      var c := ScanRowFrom(f, k, xi, yj, maxJ, th, toReal, r);
    }
    if exists c :: yj <= c <= maxJ && CellRecord(f, k, xi, yj, c, th, toReal) == Some(r) {
      var c :| yj <= c <= maxJ && CellRecord(f, k, xi, yj, c, th, toReal) == Some(r);
      ScanRowHas(f, k, xi, yj, maxJ, th, toReal, c);
    }
  }

  /** Scanning from the next cell and line names the same line for a
      later cell. */
  lemma CellRecordShift(f: CorFile, k: nat, xi: int, yj: int, c: int, th: real, toReal: RealParser)
    requires yj + 1 <= c
    ensures CellRecord(f, k, xi, yj, c, th, toReal) == CellRecord(f, k + 1, xi, yj + 1, c, th, toReal)
  {
    assert k + 1 + (c - (yj + 1)) == k + (c - yj);
  }

  /** Every record of a row comes from the line of one of its cells. */
  lemma {:induction false} ScanRowFrom(f: CorFile, k: nat, xi: int, yj: int, maxJ: int, th: real, toReal: RealParser, r: Record)
    returns (c: int)
    requires r in ScanRow(f, k, xi, yj, maxJ, th, toReal)
    ensures yj <= c <= maxJ && CellRecord(f, k, xi, yj, c, th, toReal) == Some(r)
    decreases maxJ - yj + 1
  {
    var here := Kept(LineAt(f, k), xi, yj, th, toReal);
    var tail := ScanRow(f, k + 1, xi, yj + 1, maxJ, th, toReal);
    assert ScanRow(f, k, xi, yj, maxJ, th, toReal) == AsSeq(here) + tail;
    if r in tail {
      c := ScanRowFrom(f, k + 1, xi, yj + 1, maxJ, th, toReal, r);
      CellRecordShift(f, k, xi, yj, c, th, toReal);
    } else {
      c := yj;
      assert CellRecord(f, k, xi, yj, c, th, toReal) == Some(r) by {
        assert r in AsSeq(here);
      }
    }
  }

  /** The record a cell's line yields is in its row. */
  lemma {:induction false} ScanRowHas(f: CorFile, k: nat, xi: int, yj: int, maxJ: int, th: real, toReal: RealParser, c: int)
    requires yj <= c <= maxJ && CellRecord(f, k, xi, yj, c, th, toReal).Some?
    ensures CellRecord(f, k, xi, yj, c, th, toReal).value in ScanRow(f, k, xi, yj, maxJ, th, toReal)
    decreases maxJ - yj + 1
  {
    var here := Kept(LineAt(f, k), xi, yj, th, toReal);
    var tail := ScanRow(f, k + 1, xi, yj + 1, maxJ, th, toReal);
    assert ScanRow(f, k, xi, yj, maxJ, th, toReal) == AsSeq(here) + tail;
    if c > yj {
      CellRecordShift(f, k, xi, yj, c, th, toReal);
      ScanRowHas(f, k + 1, xi, yj + 1, maxJ, th, toReal, c);
    }
  }

  /** A last line without a terminator is read again for every cell after
      it: when it is the line of cell `(xi, yj)` and the row goes on to
      `yj + 1`, the spot it holds is kept for both cells. Terminated, the
      same line is followed by an empty one and the spot is kept once. */
  lemma UnterminatedLastLineRepeats(ls: seq<string>, xi: int, yj: int, th: real, toReal: RealParser)
    requires |ls| > 0 && Kept(ls[|ls| - 1], xi, yj, th, toReal).Some?
    ensures var r := Kept(ls[|ls| - 1], xi, yj, th, toReal).value;
      ScanRow(CorFile(ls, false), |ls| - 1, xi, yj, yj + 1, th, toReal) == [r, r.(yIndex := yj + 1)]
    ensures var r := Kept(ls[|ls| - 1], xi, yj, th, toReal).value;
      ScanRow(CorFile(ls, true), |ls| - 1, xi, yj, yj + 1, th, toReal) == [r]
  {
    var last, n := ls[|ls| - 1], |ls| - 1;
    var r := Kept(last, xi, yj, th, toReal).value;
    assert Kept(last, xi, yj + 1, th, toReal) == Some(r.(yIndex := yj + 1));
    assert Kept("", xi, yj + 1, th, toReal) == None;
    var open, closed := CorFile(ls, false), CorFile(ls, true);
    assert ScanRow(open, n + 2, xi, yj + 2, yj + 1, th, toReal) == [];
    assert ScanRow(closed, n + 2, xi, yj + 2, yj + 1, th, toReal) == [];
    assert LineAt(open, n) == last && LineAt(open, n + 1) == last;
    assert LineAt(closed, n) == last && LineAt(closed, n + 1) == "";
    assert ScanRow(open, n + 1, xi, yj + 1, yj + 1, th, toReal) == [r.(yIndex := yj + 1)];
    assert ScanRow(closed, n + 1, xi, yj + 1, yj + 1, th, toReal) == [];
  }

  /** Every record of the body lies in the lattice window and passed the
      filter. */
  lemma {:induction false} ScanRowsSound(f: CorFile, k: nat, xi: int, h: Header, th: real, toReal: RealParser)
    ensures forall r :: r in ScanRows(f, k, xi, h, th, toReal) ==>
      xi <= r.xIndex <= h.maxI && h.minJ <= r.yIndex <= h.maxJ && Accepts(r.x, r.y, r.cc, th)
    decreases h.maxI - xi + 1
  {
    if xi <= h.maxI {
      ScanRowSound(f, k, xi, h.minJ, h.maxJ, th, toReal);
      ScanRowsSound(f, k + Width(h.minJ, h.maxJ), xi + 1, h, th, toReal);
    }
  }

  /** The body's records are in strictly increasing row-major cell order,
      so no cell is recorded twice. */
  lemma {:induction false} ScanRowsOrdered(f: CorFile, k: nat, xi: int, h: Header, th: real, toReal: RealParser)
    ensures Ordered(ScanRows(f, k, xi, h, th, toReal))
    decreases h.maxI - xi + 1
  {
    if xi <= h.maxI {
      var row := ScanRow(f, k, xi, h.minJ, h.maxJ, th, toReal);
      var rest := ScanRows(f, k + Width(h.minJ, h.maxJ), xi + 1, h, th, toReal);
      ScanRowOrdered(f, k, xi, h.minJ, h.maxJ, th, toReal);
      ScanRowSound(f, k, xi, h.minJ, h.maxJ, th, toReal);
      ScanRowsOrdered(f, k + Width(h.minJ, h.maxJ), xi + 1, h, th, toReal);
      ScanRowsSound(f, k + Width(h.minJ, h.maxJ), xi + 1, h, th, toReal);
      assert ScanRows(f, k, xi, h, th, toReal) == row + rest;
      OrderedConcat(row, rest);
    }
  }

  // ---------------------------------------------------------------------
  // Writing

  /** The six words of header line 6: `dim`, `O` and `a` (reals with
      precision 5). */
  function LatticeWords(h: Header, fixed: FixedFormat): seq<string> {
    [Text.IntToString(h.dim0), Text.IntToString(h.dim1),
     fixed(h.o0, 5), fixed(h.o1, 5), fixed(h.a0, 5), fixed(h.a1, 5)]
  }

  /** The six words of header line 7: `b` (precision 5) and the index
      window. */
  function WindowWords(h: Header, fixed: FixedFormat): seq<string> {
    [fixed(h.b0, 5), fixed(h.b1, 5), Text.IntToString(h.minI), Text.IntToString(h.maxI),
     Text.IntToString(h.minJ), Text.IntToString(h.maxJ)]
  }

  /** The eight header lines `write` produces: three fixed text lines, two
      empty lines, the two parameter lines and `cc_max` with precision 1. */
  function HeaderLines(h: Header, fixed: FixedFormat): seq<string> {
    [ "Cor file generated by", "xmippCCLattice_IO.cc", "--------------------", "", "",
      Text.Spaced(LatticeWords(h, fixed)), Text.Spaced(WindowWords(h, fixed)), fixed(h.ccMax, 1) ]
  }

  /** The line `write` produces for one record: the two indices separated
      by one space, then three spaces (`" "` and `"  "`) before `x`, two
      before `y` and two before `cc`; `x` and `y` with precision 3, `cc`
      with precision 2. */
  function RecordLine(r: Record, fixed: FixedFormat): string {
    Text.IntToString(r.xIndex) + (" " + (Text.IntToString(r.yIndex) + ("   " +
    (fixed(r.x, 3) + ("  " + (fixed(r.y, 3) + ("  " + fixed(r.cc, 2))))))))
  }

  function RecordLines(rs: seq<Record>, fixed: FixedFormat): (ls: seq<string>)
    ensures |ls| == |rs| && forall k :: 0 <= k < |rs| ==> ls[k] == RecordLine(rs[k], fixed)
  {
    if rs == [] then [] else [RecordLine(rs[0], fixed)] + RecordLines(rs[1..], fixed)
  }

  /** `fixed` renders `v` as one token that converts back to `v`. */
  predicate ExactAt(fixed: FixedFormat, toReal: RealParser, v: real, precision: nat) {
    fixed(v, precision) != [] && Text.NoSep(fixed(v, precision)) && toReal(fixed(v, precision)) == Some(v)
  }

  /** `AtoI` reads back every decimal integer rendering. */
  ghost predicate IntReadsBack(toInt: IntParser) {
    forall n :: toInt(Text.IntToString(n)) == Some(n)
  }

  /** The reals a header holds all print as tokens that convert back. */
  predicate HeaderExact(h: Header, fixed: FixedFormat, toReal: RealParser) {
    && ExactAt(fixed, toReal, h.o0, 5) && ExactAt(fixed, toReal, h.o1, 5)
    && ExactAt(fixed, toReal, h.a0, 5) && ExactAt(fixed, toReal, h.a1, 5)
    && ExactAt(fixed, toReal, h.b0, 5) && ExactAt(fixed, toReal, h.b1, 5)
    && ExactAt(fixed, toReal, h.ccMax, 1)
  }

  lemma LatticeLineReadsBack(h: Header, fixed: FixedFormat, toInt: IntParser, toReal: RealParser)
    requires IntReadsBack(toInt) && HeaderExact(h, fixed, toReal)
    ensures ParseLatticeLine(Text.Tokens(Text.Spaced(LatticeWords(h, fixed))), toInt, toReal) ==
      Some((h.dim0, h.dim1, h.o0, h.o1, h.a0, h.a1))
  {
    Text.TokensOfSpaced(LatticeWords(h, fixed));
    assert toInt(Text.IntToString(h.dim0)) == Some(h.dim0);
    assert toInt(Text.IntToString(h.dim1)) == Some(h.dim1);
  }

  lemma WindowLineReadsBack(h: Header, fixed: FixedFormat, toInt: IntParser, toReal: RealParser)
    requires IntReadsBack(toInt) && HeaderExact(h, fixed, toReal)
    ensures ParseWindowLine(Text.Tokens(Text.Spaced(WindowWords(h, fixed))), toInt, toReal) ==
      Some((h.b0, h.b1, h.minI, h.maxI, h.minJ, h.maxJ))
  {
    Text.TokensOfSpaced(WindowWords(h, fixed));
    assert toInt(Text.IntToString(h.minI)) == Some(h.minI);
    assert toInt(Text.IntToString(h.maxI)) == Some(h.maxI);
    assert toInt(Text.IntToString(h.minJ)) == Some(h.minJ);
    assert toInt(Text.IntToString(h.maxJ)) == Some(h.maxJ);
  }

  /** The header `write` produces is read back by `read`, whatever records
      follow, provided the reals it prints at their precision convert back
      exactly. */
  lemma WriteThenReadHeader(h: Header, rs: seq<Record>, fixed: FixedFormat, toInt: IntParser, toReal: RealParser)
    requires IntReadsBack(toInt) && HeaderExact(h, fixed, toReal)
    ensures ParseHeader(CorFile(HeaderLines(h, fixed) + RecordLines(rs, fixed), true), toInt, toReal) == Some(h)
  {
    var lines := CorFile(HeaderLines(h, fixed) + RecordLines(rs, fixed), true);
    assert LineAt(lines, 5) == Text.Spaced(LatticeWords(h, fixed));
    assert LineAt(lines, 6) == Text.Spaced(WindowWords(h, fixed));
    assert LineAt(lines, 7) == fixed(h.ccMax, 1);
    LatticeLineReadsBack(h, fixed, toInt, toReal);
    WindowLineReadsBack(h, fixed, toInt, toReal);
    Text.TokensOfWord(fixed(h.ccMax, 1));
  }

  /** A written record line splits into five tokens: both indices, `x`,
      `y` and `cc`, as printed. */
  lemma {:induction false} RecordLineTokens(r: Record, fixed: FixedFormat)
    requires fixed(r.x, 3) != [] && Text.NoSep(fixed(r.x, 3))
    requires fixed(r.y, 3) != [] && Text.NoSep(fixed(r.y, 3))
    requires fixed(r.cc, 2) != [] && Text.NoSep(fixed(r.cc, 2))
    ensures var ts := Text.Tokens(RecordLine(r, fixed));
      && |ts| == 5 && ts[0] == Text.IntToString(r.xIndex) && ts[1] == Text.IntToString(r.yIndex)
      && ts[2] == fixed(r.x, 3) && ts[3] == fixed(r.y, 3) && ts[4] == fixed(r.cc, 2)
  {
    var sx, sy := Text.IntToString(r.xIndex), Text.IntToString(r.yIndex);
    var fx, fy, fc := fixed(r.x, 3), fixed(r.y, 3), fixed(r.cc, 2);
    var l4 := fy + ("  " + fc);
    var l3 := fx + ("  " + l4);
    var l2 := sy + ("   " + l3);
    Text.TokensOfWord(fc);
    Text.TokensOfJoin(fy, "  ", fc);
    Text.TokensOfJoin(fx, "  ", l4);
    Text.TokensOfJoin(sy, "   ", l3);
    Text.TokensOfJoin(sx, " ", l2);
    assert RecordLine(r, fixed) == sx + (" " + l2);
  }

  /** The body lines do not read back: `read` takes the first three tokens
      of a written line, which are the two cell indices and `x`. The spot
      it keeps (if any) has the indices as coordinates and `x` as its
      coefficient, so write-then-read is not the identity on records. */
  lemma WrittenSpotMisread(r: Record, xi: int, yj: int, th: real, fixed: FixedFormat, toReal: RealParser)
    requires toReal(Text.IntToString(r.xIndex)) == Some(r.xIndex as real)
    requires toReal(Text.IntToString(r.yIndex)) == Some(r.yIndex as real)
    requires ExactAt(fixed, toReal, r.x, 3)
    requires fixed(r.y, 3) != [] && Text.NoSep(fixed(r.y, 3))
    requires fixed(r.cc, 2) != [] && Text.NoSep(fixed(r.cc, 2))
    ensures ParseSpot(RecordLine(r, fixed), toReal) == Some((r.xIndex as real, r.yIndex as real, r.x))
    ensures Kept(RecordLine(r, fixed), xi, yj, th, toReal) ==
      if Accepts(r.xIndex as real, r.yIndex as real, r.x, th)
      then Some(Record(xi, yj, r.xIndex as real, r.yIndex as real, r.x)) else None
  {
    RecordLineTokens(r, fixed);
    assert |RecordLine(r, fixed)| != 0;
  }

  // ---------------------------------------------------------------------
  // Lattice residuals

  /** The ideal position of the lattice spot of cell `(i, j)`:
      `O + i*a + j*b`. */
  function LatticeX(h: Header, i: int, j: int): real {
    h.o0 + i as real * h.a0 + j as real * h.b0
  }

  function LatticeY(h: Header, i: int, j: int): real {
    h.o1 + i as real * h.a1 + j as real * h.b1
  }

  // ---------------------------------------------------------------------
  // The reader/writer object

  /** The object: the lattice parameters (`dim`, `O`, `a`, `b`, the index
      window and `cc_max`, held together as one `Header` value), the peak
      factor of the threshold, and the five parallel spot vectors. */
  class CCLatticeIO {
    var header: Header
    var ccPeakFactor: real
    var xCoord: seq<real>
    var yCoord: seq<real>
    var ccCoefficient: seq<real>
    var xIndex: seq<int>
    var yIndex: seq<int>

    /** The five spot vectors are in step. */
    ghost predicate Valid()
      reads this`xCoord, this`yCoord, this`ccCoefficient, this`xIndex, this`yIndex
    {
      && |yCoord| == |xCoord| && |ccCoefficient| == |xCoord|
      && |xIndex| == |xCoord| && |yIndex| == |xCoord|
    }

    /** The kept spots, one per position of the five parallel vectors. */
    function Records(): (rs: seq<Record>)
      reads this`xCoord, this`yCoord, this`ccCoefficient, this`xIndex, this`yIndex
      requires Valid()
      ensures |rs| == |xCoord|
    {
      var xs, ys, cs, ix, iy := xCoord, yCoord, ccCoefficient, xIndex, yIndex;
      seq(|xs|, k requires 0 <= k < |xs| => Record(ix[k], iy[k], xs[k], ys[k], cs[k]))
    }

    /** `a` and `b` are zero vectors, `cc_max` and `cc_peak_factor` are
        zero, and no spot is kept. */
    constructor ()
      ensures Valid() && Records() == []
      ensures header.a0 == 0.0 && header.a1 == 0.0 && header.b0 == 0.0 && header.b1 == 0.0
      ensures header.ccMax == 0.0 && ccPeakFactor == 0.0
    {
      header := Header(0, 0, 0.0, 0.0, 0.0, 0.0, 0.0, 0.0, 0, 0, 0, 0, 0.0);
      ccPeakFactor := 0.0;
      xCoord, yCoord, ccCoefficient, xIndex, yIndex := [], [], [], [], [];
    }

    /** Append one spot to the five vectors. */
    method Push(r: Record)
      requires Valid()
      modifies this`xCoord, this`yCoord, this`ccCoefficient, this`xIndex, this`yIndex
      ensures Valid() && Records() == old(Records()) + [r]
    {
      xCoord := xCoord + [r.x];
      yCoord := yCoord + [r.y];
      ccCoefficient := ccCoefficient + [r.cc];
      xIndex := xIndex + [r.xIndex];
      yIndex := yIndex + [r.yIndex];
      assert Records() == old(Records()) + [r] by {
        forall k | 0 <= k < |Records()|
          ensures Records()[k] == (old(Records()) + [r])[k]
        {
        }
      }
    }

    /** Read a `.cor` file; `file` is `None` when it cannot be opened. The
        header sets the lattice parameters; then every cell of
        `[min_i, max_i] x [min_j, max_j]` consumes one line (as `LineAt`
        says, also past the end of the file) and the spots
        `Kept` accepts, with threshold `cc_peak_factor * cc_max`, are
        appended after those already held. Error 1601 when the file cannot
        be opened or the header is malformed. */
    method Read(file: Option<CorFile>, toInt: IntParser, toReal: RealParser) returns (st: Status)
      requires Valid()
      modifies this
      ensures Valid() && ccPeakFactor == old(ccPeakFactor)
      ensures st.Ok? <==> file.Some? && ParseHeader(file.value, toInt, toReal).Some?
      ensures st.Error? ==> st.code == 1601 && Records() == old(Records()) && header == old(header)
      ensures st.Ok? ==>
        var h := ParseHeader(file.value, toInt, toReal).value;
        header == h &&
        Records() == old(Records()) + Body(file.value, h, Threshold(ccPeakFactor, h.ccMax), toReal)
    {
      if file.None? {
        return Error(1601);
      }
      var f := file.value;
      var parsed := ParseHeader(f, toInt, toReal);
      if parsed.None? {
        return Error(1601);
      }
      header := parsed.value;
      ReadBody(f, Threshold(ccPeakFactor, header.ccMax), toReal);
      return Ok;
    }

    /** The body loop of `read`: rows `min_i..max_i`, cells
        `min_j..max_j` within a row, one line per cell from line 9 on. */
    method ReadBody(f: CorFile, th: real, toReal: RealParser)
      requires Valid()
      modifies this`xCoord, this`yCoord, this`ccCoefficient, this`xIndex, this`yIndex
      ensures Valid()
      ensures Records() == old(Records()) + Body(f, header, th, toReal)
    {
      var k: nat := 8;
      var xi := header.minI;
      while xi <= header.maxI
        invariant Valid()
        invariant Records() + ScanRows(f, k, xi, header, th, toReal) == old(Records()) + Body(f, header, th, toReal)
        decreases header.maxI - xi
      {
        ghost var before := Records();
        ghost var row := ScanRow(f, k, xi, header.minJ, header.maxJ, th, toReal);
        ghost var rest := ScanRows(f, k + Width(header.minJ, header.maxJ), xi + 1, header, th, toReal);
        assert ScanRows(f, k, xi, header, th, toReal) == row + rest;
        ReadRow(f, k, xi, th, toReal);
        AppendAssoc(before, row, rest);
        k := k + Width(header.minJ, header.maxJ);
        xi := xi + 1;
      }
    }

    /** The cells `(xi, min_j)`, ..., `(xi, max_j)` of the body loop, one
        line each from line `k` on. */
    method ReadRow(f: CorFile, k: nat, xi: int, th: real, toReal: RealParser)
      requires Valid()
      modifies this`xCoord, this`yCoord, this`ccCoefficient, this`xIndex, this`yIndex
      ensures Valid()
      ensures Records() == old(Records()) + ScanRow(f, k, xi, header.minJ, header.maxJ, th, toReal)
    {
      var yj, maxJ := header.minJ, header.maxJ;
      var line_no: nat := k;
      while yj <= maxJ
        invariant Valid()
        invariant line_no == k + (yj - header.minJ) && header.minJ <= yj
        invariant Records() + ScanRow(f, line_no, xi, yj, maxJ, th, toReal) ==
          old(Records()) + ScanRow(f, k, xi, header.minJ, maxJ, th, toReal)
        decreases maxJ - yj
      {
        var line := LineAt(f, line_no);
        ghost var before := Records();
        ghost var tail := ScanRow(f, line_no + 1, xi, yj + 1, maxJ, th, toReal);
        ReadCell(line, xi, yj, th, toReal);
        AppendAssoc(before, AsSeq(Kept(line, xi, yj, th, toReal)), tail);
        line_no := line_no + 1;
        yj := yj + 1;
      }
    }

    /** One body line, read for cell `(xi, yj)`: the spot is appended when
        the line is not empty, parses, and passes the filter. */
    method ReadCell(line: string, xi: int, yj: int, th: real, toReal: RealParser)
      requires Valid()
      modifies this`xCoord, this`yCoord, this`ccCoefficient, this`xIndex, this`yIndex
      ensures Valid()
      ensures Records() == old(Records()) + AsSeq(Kept(line, xi, yj, th, toReal))
    {
      if |line| != 0 {
        var spot := ParseSpot(line, toReal);
        if spot.Some? {
          var (x, y, cc) := spot.value;
          if x != 0.0 && y != 0.0 && cc > th {
            Push(Record(xi, yj, x, y, cc));
          }
        }
      }
    }

    /** Write the object as a `.cor` file; `canOpen` says whether the file
        could be opened (error 1601 otherwise). The file is the eight header
        lines followed by one line per kept spot, in order. */
    method Write(canOpen: bool, fixed: FixedFormat) returns (st: Status, lines: seq<string>)
      requires Valid()
      ensures st == Ok || st == Error(1601)
      ensures st.Ok? <==> canOpen
      ensures st.Error? ==> lines == []
      ensures st.Ok? ==> |lines| == 8 + |Records()|
      ensures st.Ok? ==> lines == HeaderLines(header, fixed) + RecordLines(Records(), fixed)
    {
      if !canOpen {
        return Error(1601), [];
      }
      lines := AppendRecordLines(HeaderLines(header, fixed), Records(), fixed);
      return Ok, lines;
    }

    /** The residual of every kept spot from its ideal lattice position,
        appended to `xShift` and to the empty `yShift` (the source prints
        the pairs afterwards, indexing the coefficients by the length of
        `Y_shift`, which is only safe from an empty vector). Each measured
        spot is its lattice point plus the residual. */
    method ComputeShifts(xShift: seq<real>, yShift: seq<real>) returns (xs: seq<real>, ys: seq<real>)
      requires Valid() && yShift == []
      ensures |xs| == |xShift| + |Records()| && |ys| == |Records()|
      ensures xs[..|xShift|] == xShift
      ensures forall k :: 0 <= k < |ys| ==>
        var r := Records()[k];
        r.x == LatticeX(header, r.xIndex, r.yIndex) + xs[|xShift| + k] &&
        r.y == LatticeY(header, r.xIndex, r.yIndex) + ys[k]
    {
      xs, ys := xShift, yShift;
      var h := header;
      for kk := 0 to |xCoord|
        invariant |xs| == |xShift| + kk && |ys| == kk && xs[..|xShift|] == xShift
        invariant forall k :: 0 <= k < kk ==>
          xCoord[k] == LatticeX(h, xIndex[k], yIndex[k]) + xs[|xShift| + k] &&
          yCoord[k] == LatticeY(h, xIndex[k], yIndex[k]) + ys[k]
      {
        var auxX := xCoord[kk] - h.o0 - xIndex[kk] as real * h.a0 - yIndex[kk] as real * h.b0;
        var auxY := yCoord[kk] - h.o1 - xIndex[kk] as real * h.a1 - yIndex[kk] as real * h.b1;
        xs := xs + [auxX];
        ys := ys + [auxY];
      }
    }
  }

  /** The record loop of `write`: one line per record, in order, after
      the lines already written. */
  method AppendRecordLines(head: seq<string>, rs: seq<Record>, fixed: FixedFormat) returns (lines: seq<string>)
    ensures lines == head + RecordLines(rs, fixed)
  {
    lines := head;
    for kk := 0 to |rs|
      invariant lines == head + RecordLines(rs[..kk], fixed)
    {
      RecordLinesPrefix(rs, kk, fixed);
      AppendAssoc(head, RecordLines(rs[..kk], fixed), [RecordLine(rs[kk], fixed)]);
      lines := lines + [RecordLine(rs[kk], fixed)];
    }
    assert rs[..|rs|] == rs;
  }


  lemma RecordLinesPrefix(rs: seq<Record>, kk: nat, fixed: FixedFormat)
    requires kk < |rs|
    ensures RecordLines(rs[..kk + 1], fixed) == RecordLines(rs[..kk], fixed) + [RecordLine(rs[kk], fixed)]
  {
    assert rs[..kk + 1] == rs[..kk] + [rs[kk]];
    RecordLinesAppend(rs[..kk], rs[kk], fixed);
  }

  lemma RecordLinesAppend(rs: seq<Record>, r: Record, fixed: FixedFormat)
    ensures RecordLines(rs + [r], fixed) == RecordLines(rs, fixed) + [RecordLine(r, fixed)]
  {
    var ls := RecordLines(rs + [r], fixed);
    assert forall k :: 0 <= k < |rs| ==> (rs + [r])[k] == rs[k];
  }
}

=== FILE: config.dfy ===
/** The project settings structures of `pyworkflow/config.py`: graph-node
    records and their list with an id index, the protocol menu tree and
    the recursive helper that builds it from the nested `children` lists,
    and the small option-defaulting and rewriting helpers of the
    configuration readers. Configuration files, JSON decoding and the
    database mapper are outside the model: their results are parameters. */
module Config {
  import opened Wrappers

  // ---------------------------------------------------------------------
  // Graph nodes

  /** One graph node: its id and its position, selection and expansion
      flags. The id is fixed at creation; no setter changes it. */
  class NodeConfig {
    const id: int
    var x: int
    var y: int
    var selected: bool
    var expanded: bool

    /** A missing coordinate becomes 0; a node is created unselected and
        expanded unless told otherwise. */
    constructor (nodeId: int, x: Option<int> := None, y: Option<int> := None,
                 selected: bool := false, expanded: bool := true)
      ensures id == nodeId
      ensures this.x == (if x.Some? then x.value else 0)
      ensures this.y == (if y.Some? then y.value else 0)
      ensures this.selected == selected && this.expanded == expanded
    {
      id := nodeId;
      this.x := if x.Some? then x.value else 0;
      this.y := if y.Some? then y.value else 0;
      this.selected := selected;
      this.expanded := expanded;
    }

    function GetPosition(): (int, int)
      reads this`x, this`y
    {
      (x, y)
    }

    method SetX(x: int)
      modifies this`x
      ensures this.x == x
    {
      this.x := x;
    }

    method SetY(y: int)
      modifies this`y
      ensures this.y == y
    {
      this.y := y;
    }

    /** `getPosition` then returns the pair just set; the flags and the id
        are untouched. */
    method SetPosition(x: int, y: int)
      modifies this`x, this`y
      ensures GetPosition() == (x, y)
    {
      SetX(x);
      SetY(y);
    }

    method SetSelected(selected: bool)
      modifies this`selected
      ensures this.selected == selected
    {
      this.selected := selected;
    }

    method SetExpanded(expanded: bool)
      modifies this`expanded
      ensures this.expanded == expanded
    {
      this.expanded := expanded;
    }
  }

  /** The id index a node list induces: every id maps to the last node in
      the list carrying it. */
  function DictOf(ns: seq<NodeConfig>): map<int, NodeConfig>
  {
    if ns == [] then map[] else DictOf(ns[..|ns| - 1])[ns[|ns| - 1].id := ns[|ns| - 1]]
  }

  /** An id is indexed exactly when some node carries it, and it is
      indexed to the last such node. */
  lemma {:induction false} DictOfLast(ns: seq<NodeConfig>, nodeId: int)
    ensures nodeId in DictOf(ns) <==> exists k :: 0 <= k < |ns| && ns[k].id == nodeId
    ensures nodeId in DictOf(ns) ==> exists k ::
      0 <= k < |ns| && DictOf(ns)[nodeId] == ns[k] && ns[k].id == nodeId &&
      forall j :: k < j < |ns| ==> ns[j].id != nodeId
  {
    if ns != [] {
      var init, last := ns[..|ns| - 1], ns[|ns| - 1];
      DictOfLast(init, nodeId);
      if last.id == nodeId {
        assert ns[|ns| - 1].id == nodeId;
      } else {
        if exists k :: 0 <= k < |ns| && ns[k].id == nodeId {
          var k :| 0 <= k < |ns| && ns[k].id == nodeId;
          assert init[k] == ns[k];
        }
        if nodeId in DictOf(ns) {
          var k :| 0 <= k < |init| && DictOf(init)[nodeId] == init[k] && init[k].id == nodeId &&
            forall j :: k < j < |init| ==> init[j].id != nodeId;
          assert ns[k] == init[k];
          forall j | k < j < |ns|
            ensures ns[j].id != nodeId
          {
            if j < |init| {
              assert ns[j] == init[j];
            }
          }
        }
      }
    }
  }

  /** The node list with its id index. */
  class NodeConfigList {
    var nodes: seq<NodeConfig>
    var nodesDict: map<int, NodeConfig>

    /** The index is the one the list induces. */
    ghost predicate Valid()
      reads this
    {
      nodesDict == DictOf(nodes)
    }

    constructor ()
      ensures nodes == [] && nodesDict == map[] && Valid()
    {
      nodes := [];
      nodesDict := map[];
    }

    /** The node indexed under `nodeId`, `None` for an unknown id. */
    function GetNode(nodeId: int): Option<NodeConfig>
      reads this`nodesDict
    {
      if nodeId in nodesDict then Some(nodesDict[nodeId]) else None
    }

    /** Create a node, append it to the list and index it under its id,
        replacing an earlier node with the same id in the index only; the
        list keeps both. An index in step with the list stays in step. */
    method AddNode(nodeId: int, x: Option<int> := None, y: Option<int> := None,
                   selected: bool := false, expanded: bool := true) returns (node: NodeConfig)
      modifies this
      ensures fresh(node) && node.id == nodeId
      ensures node.x == (if x.Some? then x.value else 0) && node.y == (if y.Some? then y.value else 0)
      ensures node.selected == selected && node.expanded == expanded
      ensures nodes == old(nodes) + [node]
      ensures nodesDict == old(nodesDict)[nodeId := node]
      ensures GetNode(nodeId) == Some(node)
      ensures old(Valid()) ==> Valid()
    {
      node := new NodeConfig(nodeId, x, y, selected, expanded);
      nodesDict := nodesDict[node.id := node];
      nodes := nodes + [node];
      assert nodes[..|nodes| - 1] == old(nodes);
    }

    /** Rebuild the index from the list, later nodes winning. */
    method UpdateDict()
      modifies this`nodesDict
      ensures Valid()
    {
      nodesDict := map[];
      for k := 0 to |nodes|
        invariant nodesDict == DictOf(nodes[..k])
      {
        assert nodes[..k + 1][..k] == nodes[..k];
        nodesDict := nodesDict[nodes[k].id := nodes[k]];
      }
      assert nodes[..|nodes|] == nodes;
    }

    /** Empty both the list and the index. */
    method Clear()
      modifies this
      ensures nodes == [] && nodesDict == map[] && Valid()
    {
      nodes := [];
      nodesDict := map[];
    }
  }

  /** In a list whose index is in step, `getNode` finds a node exactly
      when the list holds one with that id, and it finds the last one. */
  lemma GetNodeFindsLast(l: NodeConfigList, nodeId: int)
    requires l.Valid()
    ensures l.GetNode(nodeId).Some? <==> exists k :: 0 <= k < |l.nodes| && l.nodes[k].id == nodeId
    ensures l.GetNode(nodeId).Some? ==> exists k ::
      0 <= k < |l.nodes| && l.GetNode(nodeId).value == l.nodes[k] && l.nodes[k].id == nodeId &&
      forall j :: k < j < |l.nodes| ==> l.nodes[j].id != nodeId
  {
    DictOfLast(l.nodes, nodeId);
  }

  // ---------------------------------------------------------------------
  // Menus

  /** The icon `ProtocolConfig.addSubMenu` supplies when none is given. */
  function DefaultIcon(tag: Option<string>): Option<string> {
    if tag == Some("protocol") then Some("python_file.gif")
    else if tag == Some("protocol_base") then Some("class_obj.gif")
    else None
  }

  /** The icon a new sub-menu gets: the one given, or for a protocol menu
      the default of its tag. */
  function SubIcon(protocol: bool, icon: Option<string>, tag: Option<string>): Option<string> {
    if protocol && icon.None? then DefaultIcon(tag) else icon
  }

  /** `openItem` as given; when not given, closed for a plain menu and, for
      a protocol menu, open unless the tag is `protocol_base`. */
  function OpenItem(protocol: bool, tag: Option<string>, openItem: Option<bool>): bool {
    if openItem.Some? then openItem.value else protocol && tag != Some("protocol_base")
  }

  /** A menu item: `MenuConfig` when `protocol` is false, `ProtocolConfig`
      when it is true. Sub-menus are of the same class as their parent. */
  class MenuConfig {
    const protocol: bool
    var text: Option<string>
    var value: Option<string>
    var icon: Option<string>
    var tag: Option<string>
    var childs: seq<MenuConfig>
    var openItem: bool

    constructor (protocol: bool, text: Option<string>, value: Option<string>, icon: Option<string>,
                 tag: Option<string>, openItem: Option<bool>)
      ensures this.protocol == protocol && this.text == text && this.value == value
      ensures this.icon == icon && this.tag == tag && childs == []
      ensures this.openItem == OpenItem(protocol, tag, openItem)
    {
      this.protocol := protocol;
      this.text := text;
      this.value := value;
      this.icon := icon;
      this.tag := tag;
      childs := [];
      this.openItem := OpenItem(protocol, tag, openItem);
    }

    function Len(): nat
      reads this`childs
    {
      |childs|
    }

    predicate IsEmpty()
      reads this`childs
    {
      |childs| == 0
    }

    /** Append exactly one new, empty sub-menu of this menu's class and
        return it; for a protocol menu a missing icon is defaulted from the
        tag. Afterwards the menu is one longer and not empty. */
    method AddSubMenu(text: string, value: Option<string>, icon: Option<string>,
                      tag: Option<string>, openItem: Option<bool>) returns (sub: MenuConfig)
      modifies this`childs
      ensures fresh(sub) && sub.protocol == protocol && sub.childs == []
      ensures sub.text == Some(text) && sub.value == value && sub.tag == tag
      ensures sub.icon == SubIcon(protocol, icon, tag)
      ensures sub.openItem == OpenItem(protocol, tag, openItem)
      ensures childs == old(childs) + [sub]
      ensures Len() == old(Len()) + 1 && !IsEmpty()
    {
      sub := new MenuConfig(protocol, Some(text), value, SubIcon(protocol, icon, tag), tag, openItem);
      childs := childs + [sub];
    }
  }

  /** One entry of a menu description: the keyword arguments of
      `addSubMenu` and the nested `children` entries. */
  datatype Item = Item(text: string, value: Option<string>, icon: Option<string>,
                       tag: Option<string>, openItem: Option<bool>, children: seq<Item>)

  /** Menu `m`, with the objects below it in `objs`, has the shape, order
      and settings that `item` describes. */
  ghost predicate Mirrors(m: MenuConfig, item: Item, objs: set<MenuConfig>)
    reads objs
    decreases item
  {
    && m in objs
    && m.text == Some(item.text) && m.value == item.value && m.tag == item.tag
    && m.icon == SubIcon(m.protocol, item.icon, item.tag)
    && m.openItem == OpenItem(m.protocol, item.tag, item.openItem)
    && |m.childs| == |item.children|
    && forall k :: 0 <= k < |m.childs| ==>
         m.childs[k].protocol == m.protocol && Mirrors(m.childs[k], item.children[k], objs)
  }

  lemma {:induction false} MirrorsGrow(m: MenuConfig, item: Item, objs: set<MenuConfig>, more: set<MenuConfig>)
    requires objs <= more && Mirrors(m, item, objs)
    ensures Mirrors(m, item, more)
    decreases item
  {
    forall k | 0 <= k < |m.childs|
      ensures Mirrors(m.childs[k], item.children[k], more)
    {
      MirrorsGrow(m.childs[k], item.children[k], objs, more);
    }
  }

  /** The recursive helper of the protocol configuration reader: add a
      sub-menu for `item` to `menu`, then its children to the sub-menu, in
      order. The new sub-menu mirrors `item` and nothing else of `menu`
      changes. */
  method Add(menu: MenuConfig, item: Item) returns (sub: MenuConfig, ghost made: set<MenuConfig>)
    modifies menu`childs
    ensures fresh(made) && sub.protocol == menu.protocol
    ensures menu.childs == old(menu.childs) + [sub]
    ensures Mirrors(sub, item, made)
    decreases item
  {
    sub := menu.AddSubMenu(item.text, item.value, item.icon, item.tag, item.openItem);
    made := {sub};
    ghost var parts: seq<set<MenuConfig>> := [];
    for k := 0 to |item.children|
      invariant |sub.childs| == k && |parts| == k
      invariant menu.childs == old(menu.childs) + [sub]
      invariant sub.text == Some(item.text) && sub.value == item.value && sub.tag == item.tag
      invariant sub.icon == SubIcon(sub.protocol, item.icon, item.tag)
      invariant sub.openItem == OpenItem(sub.protocol, item.tag, item.openItem)
      invariant sub in made && fresh(made)
      invariant forall j :: 0 <= j < k ==>
        parts[j] <= made && sub !in parts[j] && sub.childs[j].protocol == sub.protocol &&
        Mirrors(sub.childs[j], item.children[j], parts[j])
    {
      var child, part := Add(sub, item.children[k]);
      parts := parts + [part];
      made := made + part;
    }
    forall j | 0 <= j < |sub.childs|
      ensures Mirrors(sub.childs[j], item.children[j], made)
    {
      MirrorsGrow(sub.childs[j], item.children[j], parts[j], made);
    }
  }

  /** One protocol menu of the configuration: a `ProtocolConfig` named
      after its option, with the option's entries added in order. */
  method BuildProtocolMenu(menuName: string, children: seq<Item>) returns (menu: MenuConfig, ghost made: set<MenuConfig>)
    ensures fresh(made) && menu in made && menu.protocol
    ensures Mirrors(menu, Item(menuName, None, None, None, None, children), made)
  {
    menu := new MenuConfig(true, Some(menuName), None, None, None, None);
    made := {menu};
    ghost var parts: seq<set<MenuConfig>> := [];
    for k := 0 to |children|
      invariant |menu.childs| == k && |parts| == k
      invariant menu.text == Some(menuName) && menu.value == None && menu.tag == None
      invariant menu.icon == None && menu.openItem
      invariant menu in made && fresh(made)
      invariant forall j :: 0 <= j < k ==>
        parts[j] <= made && menu !in parts[j] && menu.childs[j].protocol &&
        Mirrors(menu.childs[j], children[j], parts[j])
    {
      var child, part := Add(menu, children[k]);
      parts := parts + [part];
      made := made + part;
    }
    forall j | 0 <= j < |menu.childs|
      ensures Mirrors(menu.childs[j], children[j], made)
    {
      MirrorsGrow(menu.childs[j], children[j], parts[j], made);
    }
  }

  // ---------------------------------------------------------------------
  // Option helpers

  /** `s` has an occurrence of `%_(` at position `k`. */
  predicate MarkerAt(s: string, k: int) {
    0 <= k && k + 3 <= |s| && s[k] == '%' && s[k + 1] == '_' && s[k + 2] == '('
  }

  ghost predicate HasMarker(s: string) {
    exists k :: MarkerAt(s, k)
  }

  /** Python's `s.replace('%_(', '%(')`: left to right, non-overlapping. */
  function Unescape(s: string): string
    decreases |s|
  {
    if |s| == 0 then ""
    else if MarkerAt(s, 0) then "%(" + Unescape(s[3..])
    else [s[0]] + Unescape(s[1..])
  }

  /** The first character of the rewrite: `%` for a leading marker, the
      input's first character otherwise. */
  lemma UnescapeHead(s: string)
    ensures |Unescape(s)| == 0 <==> |s| == 0
    ensures |s| > 0 && MarkerAt(s, 0) ==> Unescape(s)[0] == '%'
    ensures |s| > 0 && !MarkerAt(s, 0) ==> Unescape(s)[0] == s[0]
  {
  }

  /** The rewrite leaves no `%_(` behind, even where removing an
      underscore brings characters together. */
  lemma {:induction false} UnescapeNoMarker(s: string)
    ensures !HasMarker(Unescape(s))
    decreases |s|
  {
    if |s| > 0 {
      var r := Unescape(s);
      if MarkerAt(s, 0) {
        var t := Unescape(s[3..]);
        UnescapeNoMarker(s[3..]);
        assert r == "%(" + t;
        forall k | MarkerAt(r, k)
          ensures false
        {
          if k >= 2 {
            assert MarkerAt(t, k - 2);
          }
        }
      } else {
        var t := Unescape(s[1..]);
        UnescapeNoMarker(s[1..]);
        assert r == [s[0]] + t;
        forall k | MarkerAt(r, k)
          ensures false
        {
          if k >= 1 {
            assert MarkerAt(t, k - 1);
          } else {
            UnescapeHead(s[1..]);
            assert t[0] == '_' && s[1] == '_';
            assert !MarkerAt(s[1..], 0);
            UnescapeHead(s[2..]);
          }
        }
      }
    }
  }

  /** A value without the marker is returned unchanged. */
  lemma {:induction false} UnescapeIdentity(s: string)
    ensures !HasMarker(s) ==> Unescape(s) == s
    decreases |s|
  {
    if |s| > 0 && !HasMarker(s) {
      assert !MarkerAt(s, 0);
      forall k | MarkerAt(s[1..], k)
        ensures false
      {
        assert MarkerAt(s, k + 1);
      }
      UnescapeIdentity(s[1..]);
      assert s == [s[0]] + s[1..];
    }
  }

  /** The host reader's `get`: the option of the host's section with every
      `%_(` rewritten to `%(`, or the default when the option is absent. */
  function HostGet(section: map<string, string>, option: string, default: Option<string>): (r: Option<string>)
    ensures option !in section ==> r == default
    ensures option in section ==> r == Some(Unescape(section[option]))
    ensures option in section ==> r.Some? && !HasMarker(r.value)
    ensures option in section && !HasMarker(section[option]) ==> r == Some(section[option])
  {
    if option in section then
      UnescapeNoMarker(section[option]);
      UnescapeIdentity(section[option]);
      Some(Unescape(section[option]))
    else default
  }

  /** A configuration value: text read from the file, or a boolean
      default. */
  datatype ConfValue = Text(s: string) | Flag(b: bool)

  /** `setw`/`setm` applied in order to a table of (option, default)
      pairs: each option takes the file's value when the section has it,
      its default otherwise. */
  function Fill(section: map<string, string>, defaults: seq<(string, ConfValue)>): map<string, ConfValue>
  {
    if defaults == [] then map[]
    else
      var (option, default) := defaults[|defaults| - 1];
      Fill(section, defaults[..|defaults| - 1])[option := if option in section then Text(section[option]) else default]
  }

  /** The options of the table are exactly the keys set, and each one
      holds the file's value or its own default. */
  lemma {:induction false} FillOptions(section: map<string, string>, defaults: seq<(string, ConfValue)>)
    requires forall i, j :: 0 <= i < j < |defaults| ==> defaults[i].0 != defaults[j].0
    ensures Fill(section, defaults).Keys == set i | 0 <= i < |defaults| :: defaults[i].0
    ensures forall i :: 0 <= i < |defaults| ==>
      Fill(section, defaults)[defaults[i].0] ==
        if defaults[i].0 in section then Text(section[defaults[i].0]) else defaults[i].1
  {
    if defaults != [] {
      var init := defaults[..|defaults| - 1];
      FillOptions(section, init);
      assert forall i :: 0 <= i < |init| ==> init[i] == defaults[i];
      assert (set i | 0 <= i < |defaults| :: defaults[i].0) ==
        (set i | 0 <= i < |init| :: init[i].0) + {defaults[|defaults| - 1].0};
    }
  }

  /** The main options of the web configuration and their defaults. */
  const WebDefaults: seq<(string, ConfValue)> := [
    ("SITE_URL", Text("scipion.cnb.csic.es")), ("ABSOLUTE_URL", Text("")),
    ("ANALYTICS_SCRIPT", Text("")), ("ADMIN_EMAIL", Text("")), ("DEBUG", Flag(false)),
    ("WEB_LOG_FILE", Text("scipion_web_tools.log"))]

  /** The options of the e-mail configuration and their defaults. */
  const EmailDefaults: seq<(string, ConfValue)> := [
    ("EMAIL_HOST", Text("localhost")), ("EMAIL_PORT", Text("25")),
    ("EMAIL_HOST_USER", Text("smtpuser")), ("EMAIL_HOST_PASSWORD", Text("smtppassword")),
    ("EMAIL_USE_TLS", Flag(false)),
    ("EMAIL_FOR_SUBSCRIPTION", Text("scipion-users-join@lists.sourceforge.net"))]

  /** The main part of the web configuration read from the `WEB` section:
      exactly the options of the table, each from the file or defaulted. */
  function WebConf(web: map<string, string>): (conf: map<string, ConfValue>)
    ensures conf.Keys == set i | 0 <= i < |WebDefaults| :: WebDefaults[i].0
    ensures forall i :: 0 <= i < |WebDefaults| ==>
      conf[WebDefaults[i].0] == if WebDefaults[i].0 in web then Text(web[WebDefaults[i].0]) else WebDefaults[i].1
  {
    FillOptions(web, WebDefaults);
    Fill(web, WebDefaults)
  }

  /** The e-mail configuration read from the `EMAIL` section: exactly the
      options of the table, each from the file or defaulted. */
  function EmailConf(email: map<string, string>): (conf: map<string, ConfValue>)
    ensures conf.Keys == set i | 0 <= i < |EmailDefaults| :: EmailDefaults[i].0
    ensures forall i :: 0 <= i < |EmailDefaults| ==>
      conf[EmailDefaults[i].0] == if EmailDefaults[i].0 in email then Text(email[EmailDefaults[i].0]) else EmailDefaults[i].1
  {
    FillOptions(email, EmailDefaults);
    Fill(email, EmailDefaults)
  }

  // ---------------------------------------------------------------------
  // Loading the project settings

  /** The outcome of loading the settings: the single stored settings
      object, or the two errors. */
  datatype Loaded<T> = Loaded(settings: T) | NoSettings | TooMany(found: nat)

  /** Exactly one stored settings object is accepted; none and more than
      one are errors, the latter reporting how many were found. */
  function SelectSettings<T>(found: seq<T>): (r: Loaded<T>)
    ensures r.Loaded? <==> |found| == 1
    ensures r.Loaded? ==> r.settings == found[0]
    ensures r.NoSettings? <==> |found| == 0
    ensures r.TooMany? ==> r.found == |found| > 1
  {
    if |found| == 0 then NoSettings
    else if |found| > 1 then TooMany(|found|)
    else Loaded(found[0])
  }
}

=== FILE: fft.dfy ===
/** Index bookkeeping of the Fourier helpers in `fft.cpp`: the conversion
    between the whole and the half layout of a centro-symmetric 2D spectrum,
    the integer squared distance and ring-pixel counting of the SSNR step,
    the wrap-around reordering of Savitzky-Golay coefficients, and the
    per-element phase update of `ShiftFFT`. Complex values are pairs of exact
    reals; the trigonometry is supplied by the caller. */
module FFT {

  datatype Complex = Complex(re: real, im: real)

  const Zero: Complex := Complex(0.0, 0.0)

  function Conj(z: Complex): Complex {
    Complex(z.re, -z.im)
  }

  /** The textbook complex product (four multiplications). */
  function Mul(z: Complex, w: Complex): Complex {
    Complex(z.re * w.re - z.im * w.im, z.re * w.im + z.im * w.re)
  }

  /** A matrix as a sequence of rows; `m[i][j]` is `dMij(m, i, j)`. */
  type Matrix = seq<seq<Complex>>

  predicate IsRect(m: Matrix, rows: nat, cols: nat) {
    |m| == rows && forall i :: 0 <= i < rows ==> |m[i]| == cols
  }

  /** The contents of a 2D array as a matrix value. */
  ghost function Grid(a: array2<Complex>): (m: Matrix)
    reads a
    ensures IsRect(m, a.Length0, a.Length1)
    ensures forall i, j :: 0 <= i < a.Length0 && 0 <= j < a.Length1 ==> m[i][j] == a[i, j]
  {
    seq(a.Length0, i requires 0 <= i < a.Length0 reads a =>
      seq(a.Length1, j requires 0 <= j < a.Length1 reads a => a[i, j]))
  }

  lemma {:induction false} MatrixExt(a: Matrix, b: Matrix, rows: nat, cols: nat)
    requires IsRect(a, rows, cols) && IsRect(b, rows, cols)
    requires forall i, j :: 0 <= i < rows && 0 <= j < cols ==> a[i][j] == b[i][j]
    ensures a == b
  {
    forall i | 0 <= i < rows
      ensures a[i] == b[i]
    {
      assert forall j :: 0 <= j < cols ==> a[i][j] == b[i][j];
    }
  }

  // ---------------------------------------------------------------------
  // Whole <-> half layout

  /** Number of rows kept by the half layout: `YSIZE / 2 + 1`. */
  function HalfRows(ysize: nat): nat {
    ysize / 2 + 1
  }

  /** `h` is the half layout of the whole spectrum `m` with `cols` columns:
      `HalfRows(|m|)` rows; rows 1.. copied verbatim; in row 0 only the
      first `HalfRows(|m|)` entries are kept and the rest are zero. */
  ghost predicate IsHalfOf(h: Matrix, m: Matrix, cols: nat) {
    && |m| >= 1
    && IsRect(m, |m|, cols)
    && IsRect(h, HalfRows(|m|), cols)
    && (forall j :: 0 <= j < cols ==> h[0][j] == if j < |h| then m[0][j] else Zero)
    && (forall i, j :: 1 <= i < |h| && 0 <= j < cols ==> h[i][j] == m[i][j])
  }

  /** The source `Half2Whole(in, out, oriydim)` may be called with: at
      least one row, `YSIZE(in) <= oriydim <= 2*YSIZE(in) - 1` (so every
      mirrored row `oriydim - i` exists), and a column to write into when new
      rows are produced. */
  predicate HalfInputOk(h: Matrix, cols: nat, oriydim: nat) {
    1 <= |h| <= oriydim <= 2 * |h| - 1 && IsRect(h, |h|, cols) && (oriydim > |h| ==> cols >= 1)
  }

  /** The entry `(i, j)` that `Half2Whole` leaves in its output. Old rows
      are copied, except that row 0 from column `YSIZE(in)` on is completed
      by conjugate symmetry; new rows mirror row `oriydim - i`, column 0 onto
      itself and column `j >= 1` onto `XSIZE(in) - j`. */
  function WholeEntry(h: Matrix, cols: nat, oriydim: nat, i: nat, j: nat): Complex
    requires HalfInputOk(h, cols, oriydim) && i < oriydim && j < cols
  {
    if i < |h| then
      if i == 0 && j >= |h| then Conj(h[0][cols - j]) else h[i][j]
    else if j == 0 then Conj(h[oriydim - i][0])
    else Conj(h[oriydim - i][cols - j])
  }

  ghost predicate IsWholeOf(w: Matrix, h: Matrix, cols: nat, oriydim: nat) {
    && HalfInputOk(h, cols, oriydim)
    && IsRect(w, oriydim, cols)
    && forall i, j :: 0 <= i < oriydim && 0 <= j < cols ==> w[i][j] == WholeEntry(h, cols, oriydim, i, j)
  }

  /** Convert whole -> half of a centro-symmetric 2D transform. The source
      assumes square images; it needs one row and at least `HalfRows`
      columns, since row 0 is read up to that column. */
  method Whole2Half(inp: Matrix) returns (out: array2<Complex>)
    requires |inp| >= 1 && IsRect(inp, |inp|, |inp[0]|) && HalfRows(|inp|) <= |inp[0]|
    ensures fresh(out)
    ensures IsHalfOf(Grid(out), inp, |inp[0]|)
  {
    var ldim := |inp| / 2 + 1;
    var cols := |inp[0]|;
    out := new Complex[ldim, cols]((_, _) => Zero);
    for j := 0 to ldim
      invariant forall jj :: 0 <= jj < cols ==> out[0, jj] == if jj < j then inp[0][jj] else Zero
    {
      out[0, j] := inp[0][j];
    }
    for i := 1 to ldim
      invariant forall jj :: 0 <= jj < cols ==> out[0, jj] == if jj < ldim then inp[0][jj] else Zero
      invariant forall ii, jj :: 1 <= ii < i && 0 <= jj < cols ==> out[ii, jj] == inp[ii][jj]
    {
      for j := 0 to cols
        invariant forall jj :: 0 <= jj < cols ==> out[0, jj] == if jj < ldim then inp[0][jj] else Zero
        invariant forall ii, jj :: 1 <= ii < i && 0 <= jj < cols ==> out[ii, jj] == inp[ii][jj]
        invariant forall jj :: 0 <= jj < j ==> out[i, jj] == inp[i][jj]
      {
        out[i, j] := inp[i][j];
      }
    }
  }

  /** Convert half -> whole of a centro-symmetric 2D transform with
      `oriydim` rows. */
  method Half2Whole(inp: Matrix, cols: nat, oriydim: nat) returns (out: array2<Complex>)
    requires HalfInputOk(inp, cols, oriydim)
    ensures fresh(out)
    ensures IsWholeOf(Grid(out), inp, cols, oriydim)
  {
    out := new Complex[oriydim, cols];
    CopyOldRows(inp, cols, out);
    CompleteFirstRow(inp, cols, out);
    MirrorNewRows(inp, cols, oriydim, out);
    forall ii, jj | 0 <= ii < oriydim && 0 <= jj < cols
      ensures Grid(out)[ii][jj] == WholeEntry(inp, cols, oriydim, ii, jj)
    {
    }
  }

  /** The old part of `Half2Whole`: rows `0 .. YSIZE(in)-1` copied. */
  method CopyOldRows(inp: Matrix, cols: nat, out: array2<Complex>)
    requires IsRect(inp, |inp|, cols) && |inp| <= out.Length0 && out.Length1 == cols
    modifies out
    ensures forall ii, jj :: 0 <= ii < |inp| && 0 <= jj < cols ==> out[ii, jj] == inp[ii][jj]
  {
    for i := 0 to |inp|
      invariant forall ii, jj :: 0 <= ii < i && 0 <= jj < cols ==> out[ii, jj] == inp[ii][jj]
    {
      for j := 0 to cols
        invariant forall ii, jj :: 0 <= ii < i && 0 <= jj < cols ==> out[ii, jj] == inp[ii][jj]
        invariant forall jj :: 0 <= jj < j ==> out[i, jj] == inp[i][jj]
      {
        out[i, j] := inp[i][j];
      }
    }
  }

  /** Row 0 from column `YSIZE(in)` on, completed by conjugate symmetry;
      every other entry is left as it was. */
  method CompleteFirstRow(inp: Matrix, cols: nat, out: array2<Complex>)
    requires 1 <= |inp| && IsRect(inp, |inp|, cols) && out.Length0 >= 1 && out.Length1 == cols
    modifies out
    ensures forall jj :: |inp| <= jj < cols ==> out[0, jj] == Conj(inp[0][cols - jj])
    ensures forall ii, jj :: 0 <= ii < out.Length0 && 0 <= jj < cols && !(ii == 0 && |inp| <= jj) ==>
      out[ii, jj] == old(out[ii, jj])
  {
    var c := |inp|;
    while c < cols
      invariant |inp| <= c
      invariant forall jj :: |inp| <= jj < c && jj < cols ==> out[0, jj] == Conj(inp[0][cols - jj])
      invariant forall ii, jj :: 0 <= ii < out.Length0 && 0 <= jj < cols && !(ii == 0 && |inp| <= jj < c) ==>
        out[ii, jj] == old(out[ii, jj])
    {
      out[0, c] := Conj(inp[0][cols - c]);
      c := c + 1;
    }
  }

  /** The new part of `Half2Whole`: each row `i >= YSIZE(in)` mirrors row
      `oriydim - i`; the old rows are left as they were. */
  method MirrorNewRows(inp: Matrix, cols: nat, oriydim: nat, out: array2<Complex>)
    requires HalfInputOk(inp, cols, oriydim) && out.Length0 == oriydim && out.Length1 == cols
    modifies out
    ensures forall ii, jj :: |inp| <= ii < oriydim && 0 <= jj < cols ==>
      out[ii, jj] == Conj(inp[oriydim - ii][if jj == 0 then 0 else cols - jj])
    ensures forall ii, jj :: 0 <= ii < |inp| && 0 <= jj < cols ==> out[ii, jj] == old(out[ii, jj])
  {
    for i := |inp| to oriydim
      invariant forall ii, jj :: |inp| <= ii < i && 0 <= jj < cols ==>
        out[ii, jj] == Conj(inp[oriydim - ii][if jj == 0 then 0 else cols - jj])
      invariant forall ii, jj :: 0 <= ii < |inp| && 0 <= jj < cols ==> out[ii, jj] == old(out[ii, jj])
    {
      out[i, 0] := Conj(inp[oriydim - i][0]);
      for j := 1 to cols
        invariant forall ii, jj :: |inp| <= ii < i && 0 <= jj < cols ==>
          out[ii, jj] == Conj(inp[oriydim - ii][if jj == 0 then 0 else cols - jj])
        invariant forall ii, jj :: 0 <= ii < |inp| && 0 <= jj < cols ==> out[ii, jj] == old(out[ii, jj])
        invariant forall jj :: 0 <= jj < j ==> out[i, jj] == Conj(inp[oriydim - i][if jj == 0 then 0 else cols - jj])
      {
        out[i, j] := Conj(inp[oriydim - i][cols - j]);
      }
    }
  }


  /** The index `-i mod n` for `0 <= i < n`. */
  function Mirror(i: nat, n: nat): nat
    requires i < n
  {
    if i == 0 then 0 else n - i
  }

  /** A square `n x n` spectrum is centro-symmetric when every entry is the
      conjugate of its mirror image through the origin, `(-i, -j) mod n`. */
  ghost predicate CentroSymmetric(m: Matrix, n: nat) {
    n >= 1 && IsRect(m, n, n) &&
    forall i, j {:trigger m[i][j]} :: 0 <= i < n && 0 <= j < n ==> m[i][j] == Conj(m[Mirror(i, n)][Mirror(j, n)])
  }

  /** Round trip: the half layout of a centro-symmetric square spectrum,
      expanded back to `n` rows, is the spectrum itself. */
  lemma {:induction false} HalfWholeRoundTrip(m: Matrix, h: Matrix, w: Matrix, n: nat)
    requires CentroSymmetric(m, n)
    requires IsHalfOf(h, m, n)
    requires IsWholeOf(w, h, n, n)
    ensures w == m
  {
    var ldim := HalfRows(n);
    forall i, j | 0 <= i < n && 0 <= j < n
      ensures w[i][j] == m[i][j]
    {
      assert w[i][j] == WholeEntry(h, n, n, i, j);
      if i < ldim {
        if i == 0 && j >= ldim {
          assert m[0][j] == Conj(m[0][n - j]);
          assert h[0][n - j] == m[0][n - j];
        }
      } else {
        assert 1 <= n - i < ldim;
        if j == 0 {
          assert m[i][0] == Conj(m[n - i][0]);
          assert h[n - i][0] == m[n - i][0];
        } else {
          assert m[i][j] == Conj(m[n - i][n - j]);
          assert h[n - i][n - j] == m[n - i][n - j];
        }
      }
    }
    MatrixExt(w, m, n, n);
  }

  // ---------------------------------------------------------------------
  // Squared distance and SSNR rings

  /** C++ integer `m / 2`, which truncates toward zero. */
  function HalfTrunc(m: int): int {
    if m >= 0 then m / 2 else -((-m) / 2)
  }

  /** `distancia2(x, y, m)`: squared distance from `(x, y)` to the centre
      `(m/2, m/2)`. It is never negative and vanishes exactly at the centre. */
  function Distancia2(x: int, y: int, m: int): (d: int)
    ensures d >= 0
    ensures d == 0 <==> x == HalfTrunc(m) && y == HalfTrunc(m)
  {
    var dx, dy := x - HalfTrunc(m), y - HalfTrunc(m);
    SquareNonNegative(dx);
    SquareNonNegative(dy);
    dx * dx + dy * dy
  }

  lemma SquareNonNegative(a: int)
    ensures a * a >= 0
    ensures a * a == 0 <==> a == 0
  {
    if a > 0 {
      assert a * a >= a;
    } else if a < 0 {
      assert a * a == (-a) * (-a) >= -a;
    }
  }

  /** The ring test of `my_ssnr_step` for ring `i`:
      `(i + 0.5)^2 <= d < (i + 1.5)^2`. */
  predicate InRing(d: int, i: int) {
    var w := i as real + 0.5;
    w * w <= d as real < (w + 1.0) * (w + 1.0)
  }

  lemma SquareMonotone(a: real, b: real)
    requires 0.0 <= a <= b
    ensures a * a <= b * b
  {
    assert a * a <= a * b;
    assert a * b <= b * b;
  }

  /** Rings of different non-negative indices share no distance. */
  lemma RingsDisjoint(d: int, i: int, k: int)
    requires 0 <= i && 0 <= k && i != k
    ensures !(InRing(d, i) && InRing(d, k))
  {
    var lo, hi := if i < k then i else k, if i < k then k else i;
    SquareMonotone(lo as real + 1.5, hi as real + 0.5);
  }

  /** Number of columns `0 <= jj < cols` of row `ii` whose distance to the
      centre of an `n`-row transform falls in ring `ring`. */
  function RowRingCount(n: int, ring: int, ii: int, cols: nat): nat {
    if cols == 0 then 0
    else RowRingCount(n, ring, ii, cols - 1) + (if InRing(Distancia2(ii, cols - 1, n), ring) then 1 else 0)
  }

  /** Number of pixels `(ii, jj)`, `0 <= ii < rows`, `0 <= jj <= n/2`, in
      ring `ring`. */
  function RingCount(n: nat, ring: int, rows: nat): nat {
    if rows == 0 then 0
    else RingCount(n, ring, rows - 1) + RowRingCount(n, ring, rows - 1, n / 2 + 1)
  }

  lemma {:induction false} RowRingCountBound(n: int, ring: int, ii: int, cols: nat)
    ensures RowRingCount(n, ring, ii, cols) <= cols
  {
    if cols > 0 {
      RowRingCountBound(n, ring, ii, cols - 1);
    }
  }

  /** A ring never holds more pixels than the half-plane scanned. */
  lemma {:induction false} RingCountBound(n: nat, ring: int, rows: nat)
    ensures RingCount(n, ring, rows) <= rows * (n / 2 + 1)
  {
    if rows > 0 {
      RingCountBound(n, ring, rows - 1);
      RowRingCountBound(n, ring, rows - 1, n / 2 + 1);
      assert rows * (n / 2 + 1) == (rows - 1) * (n / 2 + 1) + (n / 2 + 1);
    }
  }

  /** The bookkeeping of `my_ssnr_step` for a transform with `n` rows: for
      every ring `i` of `ssnr`, `pixel(i)` is overwritten with the ring's
      pixel count while `ssnr(i)` is accumulated. `ringRatio(i)` is the
      floating-point quotient the source adds for ring `i`. */
  method SsnrStep(n: nat, ssnr: array<real>, pixel: array<real>, ringRatio: nat -> real)
    requires ssnr != pixel && ssnr.Length <= pixel.Length
    modifies ssnr, pixel
    ensures forall i :: 0 <= i < ssnr.Length ==> ssnr[i] == old(ssnr[i]) + ringRatio(i)
    ensures forall i :: 0 <= i < ssnr.Length ==> pixel[i] == RingCount(n, i, n) as real
    ensures forall i :: ssnr.Length <= i < pixel.Length ==> pixel[i] == old(pixel[i])
  {
    var top := n / 2;
    for i := 0 to ssnr.Length
      invariant forall k :: 0 <= k < i ==> ssnr[k] == old(ssnr[k]) + ringRatio(k)
      invariant forall k :: i <= k < ssnr.Length ==> ssnr[k] == old(ssnr[k])
      invariant forall k :: 0 <= k < i ==> pixel[k] == RingCount(n, k, n) as real
      invariant forall k :: i <= k < pixel.Length ==> pixel[k] == old(pixel[k])
    {
      var cont := 0;
      for ii := 0 to n
        invariant cont == RingCount(n, i, ii)
      {
        for jj := 0 to top + 1
          invariant cont == RingCount(n, i, ii) + RowRingCount(n, i, ii, jj)
        {
          var d := Distancia2(ii, jj, n);
          if InRing(d, i) {
            cont := cont + 1;
          }
        }
      }
      ssnr[i] := ssnr[i] + ringRatio(i);
      pixel[i] := cont as real;
    }
  }

  // ---------------------------------------------------------------------
  // Savitzky-Golay coefficient wrap-around

  /** The slot `numerical_derivative` writes coefficient `i` into. */
  function WrapSlot(i: nat, windowSize: nat): nat
    requires i < 2 * windowSize + 1
  {
    if i + windowSize < 2 * windowSize + 1 then i + windowSize else i + windowSize - (2 * windowSize + 1)
  }

  lemma WrapSlotIsMod(i: nat, windowSize: nat)
    requires i < 2 * windowSize + 1
    ensures WrapSlot(i, windowSize) == (i + windowSize) % (2 * windowSize + 1)
  {
  }

  /** The coefficient that lands in slot `k`. */
  lemma UnwrapIsMod(k: nat, windowSize: nat)
    requires k < 2 * windowSize + 1
    ensures var i := (k + windowSize + 1) % (2 * windowSize + 1);
      i == (if k >= windowSize then k - windowSize else k + windowSize + 1) && WrapSlot(i, windowSize) == k
  {
  }

  /** Reorder the wrap-around Savitzky-Golay coefficients of a window of
      half-width `windowSize` for the convolution routine: coefficient `i`
      goes to slot `(i + windowSize) mod (2*windowSize + 1)`. Every slot is
      written exactly once, so slot `k` receives coefficient
      `(k + windowSize + 1) mod (2*windowSize + 1)`. */
  method WrapCoefficients(rotated: array<real>, windowSize: nat) returns (coefficients: array<real>)
    requires rotated.Length == 2 * windowSize + 1
    ensures fresh(coefficients) && coefficients.Length == rotated.Length
    ensures forall i :: 0 <= i < rotated.Length ==> coefficients[(i + windowSize) % rotated.Length] == rotated[i]
    ensures forall k :: 0 <= k < rotated.Length ==> coefficients[k] == rotated[(k + windowSize + 1) % rotated.Length]
  {
    var dim := 2 * windowSize + 1;
    coefficients := new real[dim];
    for i := 0 to dim
      invariant forall ii :: 0 <= ii < i ==> coefficients[WrapSlot(ii, windowSize)] == rotated[ii]
    {
      var j := i + windowSize;
      if j < dim {
        coefficients[j] := rotated[i];
      } else {
        coefficients[j - dim] := rotated[i];
      }
    }
    forall i | 0 <= i < dim
      ensures coefficients[(i + windowSize) % dim] == rotated[i]
    {
      WrapSlotIsMod(i, windowSize);
    }
    forall k | 0 <= k < dim
      ensures coefficients[k] == rotated[(k + windowSize + 1) % dim]
    {
      UnwrapIsMod(k, windowSize);
    }
  }

  // ---------------------------------------------------------------------
  // ShiftFFT per-element update

  /** The update `ShiftFFT` applies to one element `(c, d)` with phase
      factor `(a, b) = (cos, sin)`: three real multiplications. Over exact
      reals it is the complex product of the factor and the element. */
  function ShiftUpdate(factor: Complex, v: Complex): (r: Complex)
    ensures r == Mul(factor, v)
  {
    var a, b, c, d := factor.re, factor.im, v.re, v.im;
    var ac, bd := a * c, b * d;
    var abcd := (a + b) * (c + d);
    assert abcd - ac - bd == a * d + b * c;
    Complex(ac - bd, abcd - ac - bd)
  }

  /** 1D `ShiftFFT`: element `j` is multiplied by `factor(j)`, the phase
      factor `(cos, sin)` of `-2*pi*j*xshift/XSIZE`. */
  method ShiftFFT1D(v: array<Complex>, factor: int -> Complex)
    modifies v
    ensures forall j :: 0 <= j < v.Length ==> v[j] == Mul(factor(j), old(v[j]))
  {
    for j := 0 to v.Length
      invariant forall k :: 0 <= k < j ==> v[k] == Mul(factor(k), old(v[k]))
      invariant forall k :: j <= k < v.Length ==> v[k] == old(v[k])
    {
      v[j] := ShiftUpdate(factor(j), v[j]);
    }
  }

  lemma MulStep(a: nat, c: nat)
    ensures (a + 1) * c == a * c + c
  {
  }

  lemma {:induction false} MulMonotone(a: nat, b: nat, c: nat)
    requires a <= b
    ensures a * c <= b * c
  {
    if a < b {
      MulMonotone(a, b - 1, c);
      MulStep(b - 1, c);
    }
  }

  /** Row-end bound: row `i` of a `ysize`-row buffer ends inside it. */
  lemma RowEnd(i: nat, xsize: nat, ysize: nat)
    requires i < ysize
    ensures i * xsize + xsize == (i + 1) * xsize <= xsize * ysize
  {
    MulStep(i, xsize);
    MulMonotone(i + 1, ysize, xsize);
  }

  /** Row-major position `i * xsize + j` of element `(i, j)` of a
      `ysize x xsize` buffer; it always lies inside the buffer. */
  function Pos(i: nat, j: nat, xsize: nat, ysize: nat): (p: nat)
    requires i < ysize && j < xsize
    ensures p < xsize * ysize
  {
    RowEnd(i, xsize, ysize);
    i * xsize + j
  }

  /** Row-major order: every element of an earlier row comes first. */
  lemma {:induction false} PosBefore(ii: nat, jj: nat, i: nat, xsize: nat, ysize: nat)
    requires ii < i < ysize && jj < xsize
    ensures Pos(ii, jj, xsize, ysize) < i * xsize
  {
    RowEnd(ii, xsize, i);
  }

  /** 2D `ShiftFFT` over a row-major `ysize x xsize` buffer: element
      `(i, j)` is multiplied by its phase factor `factor(i, j)` once. */
  method ShiftFFT2D(v: array<Complex>, xsize: nat, ysize: nat, factor: (int, int) -> Complex)
    requires v.Length == xsize * ysize
    modifies v
    ensures forall i, j :: 0 <= i < ysize && 0 <= j < xsize ==>
      v[Pos(i, j, xsize, ysize)] == Mul(factor(i, j), old(v[Pos(i, j, xsize, ysize)]))
  {
    for i := 0 to ysize
      invariant forall ii, jj :: 0 <= ii < i && 0 <= jj < xsize ==>
        v[Pos(ii, jj, xsize, ysize)] == Mul(factor(ii, jj), old(v[Pos(ii, jj, xsize, ysize)]))
      invariant forall k :: i * xsize <= k < v.Length ==> v[k] == old(v[k])
    {
      var row := i * xsize;
      RowEnd(i, xsize, ysize);
      ghost var before := v[..];
      for j := 0 to xsize
        invariant forall k :: 0 <= k < row ==> v[k] == before[k]
        invariant forall jj :: 0 <= jj < j ==> v[row + jj] == Mul(factor(i, jj), old(v[row + jj]))
        invariant forall k :: row + j <= k < v.Length ==> v[k] == old(v[k])
      {
        v[row + j] := ShiftUpdate(factor(i, j), v[row + j]);
      }
      forall ii, jj | 0 <= ii < i && 0 <= jj < xsize
        ensures Pos(ii, jj, xsize, ysize) < row
      {
        PosBefore(ii, jj, i, xsize, ysize);
      }
    }
  }
}

=== FILE: ml_align2d.dfy ===
/** The sequential pieces of the ML2D alignment program header
    (`ml_align2d.h`): the walk over reference indices that every worker
    thread runs for each job it claims, the `JMTimer` table of timing
    counters, and the thread-task codes. */
module MLAlign2D {
  import opened Wrappers
  import Text

  // ---------------------------------------------------------------------
  // The reference-index walk of `FOR_ALL_THREAD_REFNO`

  /** C++ `%` on `int`: the remainder takes the sign of the dividend. */
  function CMod(a: int, n: int): (r: int)
    requires n > 0
    ensures a >= 0 ==> 0 <= r < n && r == a % n
    ensures a < 0 ==> -n < r <= 0
  {
    if a >= 0 then a % n else -((-a) % n)
  }

  /** The reference indices one claim visits: `load` of them, from the
      claimed `refno`, each next one `(refno + 1) % n_ref`. */
  function Walk(refno: int, load: nat, nRef: int): seq<int>
    requires nRef > 0
    decreases load
  {
    if load == 0 then [] else [refno] + Walk(CMod(refno + 1, nRef), load - 1, nRef)
  }

  /** From an index in range, the walk visits consecutive indices modulo
      the number of references. */
  lemma WalkFrom(start: int, load: nat, nRef: int)
    requires 0 <= start < nRef
    ensures |Walk(start, load, nRef)| == load
    ensures forall i :: 0 <= i < load ==> Walk(start, load, nRef)[i] == (start + i) % nRef
  {
    WalkLength(start, load, nRef);
    forall i | 0 <= i < load
      ensures Walk(start, load, nRef)[i] == (start + i) % nRef
    {
      WalkAt(start, load, nRef, i);
    }
  }

  /** Index `i` of a walk from an index in range is `(start + i) % n_ref`. */
  lemma {:induction false} WalkAt(start: int, load: nat, nRef: int, i: nat)
    requires 0 <= start < nRef && i < load
    ensures |Walk(start, load, nRef)| == load && Walk(start, load, nRef)[i] == (start + i) % nRef
    decreases i
  {
    WalkLength(start, load, nRef);
    if i == 0 {
      ModUnique(start, nRef, 0, start);
    } else {
      var next := CMod(start + 1, nRef);
      WalkAt(next, load - 1, nRef, i - 1);
      assert Walk(start, load, nRef)[i] == Walk(next, load - 1, nRef)[i - 1];
      ModShift(start, i, nRef);
    }
  }

  /** `((s + 1) % n + (i - 1)) % n == (s + i) % n` for `0 <= s < n`. */
  lemma ModShift(s: int, i: int, n: int)
    requires 0 <= s < n && i >= 1
    ensures ((s + 1) % n + (i - 1)) % n == (s + i) % n
  {
    if s + 1 == n {
      assert (s + 1) % n == 0;
      ModAddMultiple(i - 1, n);
      assert (i - 1) + n == s + i;
    } else {
      assert (s + 1) % n == s + 1;
    }
  }

  lemma ModAddMultiple(x: int, n: int)
    requires x >= 0 && n > 0
    ensures (x + n) % n == x % n
  {
    var q, r := x / n, x % n;
    assert x + n == (q + 1) * n + r;
    ModUnique(x + n, n, q + 1, r);
  }

  /** The remainder is the unique `r` in `[0, n)` with `a == q * n + r`. */
  lemma ModUnique(a: int, n: int, q: int, r: int)
    requires n > 0 && a == q * n + r && 0 <= r < n
    ensures a % n == r
  {
    var q' := a / n;
    MulSub(q, q', n);
    if q > q' {
      MulAtLeast(q - q', n);
    } else if q < q' {
      MulAtLeast(q' - q, n);
      MulSub(q', q, n);
    }
  }

  lemma MulSub(a: int, b: int, n: int)
    ensures a * n - b * n == (a - b) * n
  {
  }

  lemma {:induction false} MulAtLeast(k: int, n: int)
    requires k >= 1 && n > 0
    ensures k * n >= n
  {
    if k > 1 {
      MulAtLeast(k - 1, n);
      assert k * n == (k - 1) * n + n;
    }
  }

  /** Every index a claim visits is a valid reference index when the
      claimed one is. */
  lemma WalkInRange(start: int, load: nat, nRef: int)
    requires 0 <= start < nRef
    ensures forall k :: k in Walk(start, load, nRef) ==> 0 <= k < nRef
  {
    WalkFrom(start, load, nRef);
  }

  /** A claim of at most `n_ref` references visits each at most once. */
  lemma WalkDistinct(start: int, load: nat, nRef: int)
    requires 0 <= start < nRef && load <= nRef
    ensures forall i, j :: 0 <= i < j < |Walk(start, load, nRef)| ==>
      Walk(start, load, nRef)[i] != Walk(start, load, nRef)[j]
  {
    WalkFrom(start, load, nRef);
    var w := Walk(start, load, nRef);
    forall i, j | 0 <= i < j < |w|
      ensures w[i] != w[j]
    {
      ModBelowTwice(start + i, nRef);
      ModBelowTwice(start + j, nRef);
    }
  }

  lemma ModBelowTwice(x: int, n: int)
    requires 0 <= x < 2 * n
    ensures x % n == if x < n then x else x - n
  {
    if x >= n {
      ModUnique(x, n, 1, x - n);
    } else {
      ModUnique(x, n, 0, x);
    }
  }

  /** What `getThreadRefnoJob` hands a thread: a load and the first
      reference index of the job. */
  datatype Claim = Claim(load: int, refno: int)

  /** The indices visited by the loop, over the claims in the order they
      are handed out; the loop ends at the first claim whose load is not
      positive (or when no claim is left). */
  function Trace(claims: seq<Claim>, nRef: int): seq<int>
    requires nRef > 0
  {
    if claims == [] || claims[0].load <= 0 then []
    else Walk(claims[0].refno, claims[0].load, nRef) + Trace(claims[1..], nRef)
  }

  /** When every claim starts at a valid reference index, so does every
      visited index. */
  lemma {:induction false} TraceInRange(claims: seq<Claim>, nRef: int)
    requires nRef > 0
    requires forall c :: c in claims ==> 0 <= c.refno < nRef
    ensures forall k :: k in Trace(claims, nRef) ==> 0 <= k < nRef
  {
    if claims != [] && claims[0].load > 0 {
      WalkInRange(claims[0].refno, claims[0].load, nRef);
      TraceInRange(claims[1..], nRef);
    }
  }

  /** The number of iterations is the sum of the positive loads up to the
      first non-positive one. */
  function TotalLoad(claims: seq<Claim>): nat {
    if claims == [] || claims[0].load <= 0 then 0 else claims[0].load + TotalLoad(claims[1..])
  }

  lemma {:induction false} TraceLength(claims: seq<Claim>, nRef: int)
    requires nRef > 0
    ensures |Trace(claims, nRef)| == TotalLoad(claims)
  {
    if claims != [] && claims[0].load > 0 {
      WalkLength(claims[0].refno, claims[0].load, nRef);
      TraceLength(claims[1..], nRef);
    }
  }

  lemma {:induction false} WalkLength(refno: int, load: nat, nRef: int)
    requires nRef > 0
    ensures |Walk(refno, load, nRef)| == load
    decreases load
  {
    if load > 0 {
      WalkLength(CMod(refno + 1, nRef), load - 1, nRef);
    }
  }

  /** `FOR_ALL_THREAD_REFNO`: claim jobs while the load is positive and run
      the body once per index of the job; the result lists the `refno` the
      body sees at each run. */
  method ThreadRefnoLoop(claims: seq<Claim>, nRef: int) returns (visited: seq<int>)
    requires nRef > 0
    ensures visited == Trace(claims, nRef)
  {
    visited := [];
    var c := 0;
    while c < |claims| && claims[c].load > 0
      invariant 0 <= c <= |claims|
      invariant visited + Trace(claims[c..], nRef) == Trace(claims, nRef)
    {
      var load := claims[c].load;
      var refno := claims[c].refno;
      ghost var before := visited;
      for i := 0 to load
        invariant before + Walk(claims[c].refno, load, nRef) == visited + Walk(refno, load - i, nRef)
      {
        AppendAssoc(visited, [refno], Walk(CMod(refno + 1, nRef), load - i - 1, nRef));
        visited := visited + [refno];
        refno := CMod(refno + 1, nRef);
      }
      assert claims[c..][1..] == claims[c + 1..];
      AppendAssoc(before, Walk(claims[c].refno, load, nRef), Trace(claims[c + 1..], nRef));
      c := c + 1;
    }
    assert Trace(claims[c..], nRef) == [];
    assert visited + [] == visited;
  }


  // ---------------------------------------------------------------------
  // JMTimer

  /** `TB_TOTAL`: the number of timing blocks. */
  const TB_TOTAL: nat := 18

  /** The timing blocks of the `TimingBlocks` enumeration, in order. */
  datatype TimingBlock =
    | Iter | IterE | IterM | ERr | EPre | EFor | ERrr | EOut
    | ForF1 | ForPfs | ForEsi | ForF2
    | EsiE1 | EsiE2Th | EsiE3 | EsiE4 | EsiE5 | EsiE6Th

  /** The enumeration value of a block, `(int)tb`. */
  function Index(tb: TimingBlock): (i: nat)
    ensures i < TB_TOTAL
  {
    match tb
    case Iter => 0 case IterE => 1 case IterM => 2 case ERr => 3
    case EPre => 4 case EFor => 5 case ERrr => 6 case EOut => 7
    case ForF1 => 8 case ForPfs => 9 case ForEsi => 10 case ForF2 => 11
    case EsiE1 => 12 case EsiE2Th => 13 case EsiE3 => 14 case EsiE4 => 15
    case EsiE5 => 16 case EsiE6Th => 17
  }

  /** The block with a given enumeration value. */
  function BlockAt(i: nat): (tb: TimingBlock)
    requires i < TB_TOTAL
    ensures Index(tb) == i
  {
    [Iter, IterE, IterM, ERr, EPre, EFor, ERrr, EOut, ForF1, ForPfs, ForEsi, ForF2,
     EsiE1, EsiE2Th, EsiE3, EsiE4, EsiE5, EsiE6Th][i]
  }

  /** The enumeration numbers the blocks one to one. */
  lemma BlockIndexRoundTrip(tb: TimingBlock)
    ensures BlockAt(Index(tb)) == tb
  {
  }

  /** The names `printTimes` prints, one per block in enumeration order. */
  const Tags: seq<string> := ["ITER", "ITER_E", "ITER_M", "E_RR", "E_PRE", "E_FOR", "E_RRR", "E_OUT",
    "FOR_F1", "FOR_PFS", "FOR_ESI", "FOR_F2", "ESI_E1", "ESI_E2TH", "ESI_E3", "ESI_E4", "ESI_E5", "ESI_E6TH"]

  /** A `timeval`: seconds and microseconds. */
  datatype Timeval = Timeval(sec: int, usec: int)

  /** A time as a count of microseconds. */
  function Micros(t: Timeval): int {
    t.sec * 1000000 + t.usec
  }

  /** The increment `toc` adds: seconds and microseconds differenced
      separately; it is the difference of the two times in
      microseconds, whatever the microsecond fields hold. */
  function Elapsed(start: Timeval, end: Timeval): (d: int)
    ensures d == Micros(end) - Micros(start)
    ensures Micros(start) <= Micros(end) ==> d >= 0
  {
    (end.sec - start.sec) * 1000000 + (end.usec - start.usec)
  }

  /** C++ `/` on integers: the quotient is truncated toward zero. */
  function CDiv(a: int, b: int): (q: int)
    requires b != 0
    ensures a >= 0 && b > 0 ==> q == a / b
    ensures a < 0 && b > 0 ==> q == -((-a) / b)
  {
    var m := (if a < 0 then -a else a) / (if b < 0 then -b else b);
    if (a < 0) == (b < 0) then m else -m
  }

  /** Truncated division of a non-negative total by a positive count gives
      the largest mean that does not exceed the total. */
  lemma CDivMean(a: int, b: int)
    requires a >= 0 && b > 0
    ensures CDiv(a, b) * b <= a < (CDiv(a, b) + 1) * b
  {
  }

  /** One line of `printTimes`: the block's name, the words " took: ", its
      mean time and the unit " microseconds". */
  function TimesLine(tag: string, mean: int): string {
    tag + " took: " + Text.IntToString(mean) + " microseconds"
  }

  /** The timing table: per block, the time of the last `tic`, the number
      of `tic`s and the accumulated microseconds. The time source is a
      parameter of `tic` and `toc`. */
  class JMTimer {
    const startTimes: array<Timeval>
    const counts: array<int>
    const times: array<int>
    var endTime: Timeval

    ghost predicate Valid()
      reads this
    {
      startTimes.Length == TB_TOTAL && counts.Length == TB_TOTAL && times.Length == TB_TOTAL
      && counts != times
    }

    /** A new timer has every count and every total at zero. */
    constructor ()
      ensures Valid() && fresh(startTimes) && fresh(counts) && fresh(times)
      ensures forall i :: 0 <= i < TB_TOTAL ==> counts[i] == 0 && times[i] == 0
    {
      startTimes := new Timeval[TB_TOTAL](_ => Timeval(0, 0));
      counts := new int[TB_TOTAL];
      times := new int[TB_TOTAL];
      endTime := Timeval(0, 0);
      new;
      Clear();
    }

    /** Zero every count and every total; the loop stops at the table
        size (see `ClearAsWrittenOverruns`). */
    method Clear()
      requires Valid()
      modifies counts, times
      ensures forall i :: 0 <= i < TB_TOTAL ==> counts[i] == 0 && times[i] == 0
    {
      for i := 0 to TB_TOTAL
        invariant forall k :: 0 <= k < i ==> counts[k] == 0 && times[k] == 0
      {
        times[i] := 0;
        counts[i] := times[i];
      }
    }

    /** Start block `tb`: record the time and count the start; nothing
        else changes. */
    method Tic(tb: TimingBlock, now: Timeval)
      requires Valid()
      modifies startTimes, counts
      ensures startTimes[..] == old(startTimes[..])[Index(tb) := now]
      ensures counts[..] == old(counts[..])[Index(tb) := old(counts[Index(tb)]) + 1]
    {
      var i := Index(tb);
      startTimes[i] := now;
      counts[i] := counts[i] + 1;
    }

    /** Stop block `tb`: add the time since its last start to its total;
        nothing else changes. */
    method Toc(tb: TimingBlock, now: Timeval)
      requires Valid()
      modifies this`endTime, times
      ensures endTime == now
      ensures times[..] == old(times[..])[Index(tb) := old(times[Index(tb)]) + Elapsed(startTimes[Index(tb)], now)]
    {
      var i := Index(tb);
      endTime := now;
      times[i] := times[i] + (endTime.sec - startTimes[i].sec) * 1000000 + (endTime.usec - startTimes[i].usec);
    }

    /** One line per block with its mean time (total over count, truncated),
        then a reset when asked. Every count must be non-zero: the mean
        divides by it. */
    method PrintTimes(doClear: bool) returns (lines: seq<string>)
      requires Valid()
      requires forall i :: 0 <= i < TB_TOTAL ==> counts[i] != 0
      modifies counts, times
      ensures |lines| == TB_TOTAL
      ensures forall i :: 0 <= i < TB_TOTAL ==> lines[i] == TimesLine(Tags[i], CDiv(old(times[i]), old(counts[i])))
      ensures doClear ==> forall i :: 0 <= i < TB_TOTAL ==> counts[i] == 0 && times[i] == 0
      ensures !doClear ==> counts[..] == old(counts[..]) && times[..] == old(times[..])
    {
      lines := TimesLinesOf(Tags, times, counts);
      if doClear {
        Clear();
      }
    }
  }

  /** The lines `printTimes` writes: one per block, its name and its
      mean time. */
  method TimesLinesOf(tags: seq<string>, times: array<int>, counts: array<int>) returns (lines: seq<string>)
    requires |tags| == TB_TOTAL && times.Length == TB_TOTAL && counts.Length == TB_TOTAL
    requires forall i :: 0 <= i < TB_TOTAL ==> counts[i] != 0
    ensures |lines| == TB_TOTAL
    ensures forall i :: 0 <= i < TB_TOTAL ==> lines[i] == TimesLine(tags[i], CDiv(times[i], counts[i]))
  {
    ghost var want := seq(TB_TOTAL, k requires 0 <= k < TB_TOTAL && counts[k] != 0 reads times, counts =>
      TimesLine(tags[k], CDiv(times[k], counts[k])));
    lines := [];
    for i := 0 to TB_TOTAL
      invariant lines == want[..i]
    {
      TakeSnoc(want, i);
      lines := lines + [TimesLine(tags[i], CDiv(times[i], counts[i]))];
    }
    assert lines == want;
  }

  /** The indices the source's `clear` loop writes, for a loop bound. */
  function ClearWrites(bound: nat): (ws: seq<nat>)
    ensures |ws| == bound && forall k :: 0 <= k < bound ==> ws[k] == k
  {
    if bound == 0 then [] else ClearWrites(bound - 1) + [bound - 1]
  }

  /** The bound of the source's `clear` loop. */
  const ClearBoundAsWritten: nat := 25

  /** As written, `clear` writes `counts` and `times` at indices 18 to 24,
      past the end of both 18-entry arrays. */
  lemma ClearAsWrittenOverruns()
    ensures exists k :: k in ClearWrites(ClearBoundAsWritten) && k >= TB_TOTAL
    ensures |ClearWrites(ClearBoundAsWritten)| - TB_TOTAL == 7
  {
    assert ClearWrites(ClearBoundAsWritten)[TB_TOTAL] == TB_TOTAL;
    assert TB_TOTAL in ClearWrites(ClearBoundAsWritten);
  }

  /** With the table size as bound, every index written is in range and
      every entry is written. */
  lemma ClearCorrectedInRange()
    ensures forall k :: k in ClearWrites(TB_TOTAL) <==> 0 <= k < TB_TOTAL
  {
    var ws := ClearWrites(TB_TOTAL);
    forall k | 0 <= k < TB_TOTAL
      ensures k in ws
    {
      assert ws[k] == k;
    }
  }

  // ---------------------------------------------------------------------
  // Thread-task codes

  /** The task a worker thread is told to run. */
  datatype ThreadTask = Exit | EsiRefno | EsiUpdateRefno | RrRefno | RrrRefno | PfsRefno

  /** The `TH_*` constant of a task. */
  function TaskCode(t: ThreadTask): (c: int)
    ensures 0 <= c <= 5
    ensures c == 0 <==> t == Exit
  {
    match t
    case Exit => 0
    case EsiRefno => 1
    case EsiUpdateRefno => 2
    case RrRefno => 3
    case RrrRefno => 4
    case PfsRefno => 5
  }

  /** The task a code names, if any. */
  function TaskOfCode(c: int): (t: Option<ThreadTask>)
    ensures t.Some? <==> 0 <= c <= 5
  {
    if c == 0 then Some(Exit)
    else if c == 1 then Some(EsiRefno)
    else if c == 2 then Some(EsiUpdateRefno)
    else if c == 3 then Some(RrRefno)
    else if c == 4 then Some(RrrRefno)
    else if c == 5 then Some(PfsRefno)
    else None
  }

  /** Codes and tasks correspond one to one. */
  lemma TaskCodeRoundTrip(t: ThreadTask, c: int)
    ensures TaskOfCode(TaskCode(t)) == Some(t)
    ensures TaskOfCode(c).Some? ==> TaskCode(TaskOfCode(c).value) == c
  {
  }
}

=== FILE: projmatch.dfy ===
/** The defocus-group bookkeeping of the SPIDER projection-matching
    protocol (`protocol_projmatch.py`): particles are grouped by micrograph
    id, each group numbers its particles from 1, writes one stack entry,
    one selection line and one alignment row per particle, and takes its
    defocus from its first particle; a summary document then gets one row
    per group. Image conversion and document files are logs the model
    appends to. */
module SpiderProjMatch {
  import opened Wrappers
  import Text

  /** A particle as the grouping sees it: its identity, the id of its
      micrograph (the defocus group) and the two defocus values of its
      CTF. */
  datatype Particle = Particle(id: int, micId: int, defocusU: real, defocusV: real)

  /** The `path` helper of the script writer: `os.path.join('..', p)`
      between single quotes. An absolute `p` replaces the `..`. */
  function JoinParent(p: string): string {
    if |p| > 0 && p[0] == '/' then p else "../" + p
  }

  function Path(p: string): (r: string)
    ensures |r| >= 2 && r[0] == '\'' && r[|r| - 1] == '\''
    ensures r[1..|r| - 1] == JoinParent(p)
    ensures !(|p| > 0 && p[0] == '/') ==> r[1..4] == "../" && r[4..|r| - 1] == p
  {
    "'" + JoinParent(p) + "'"
  }

  /** The prefix of `s` before its first underscore. */
  function BeforeUnderscore(s: string): string {
    if s == [] || s[0] == '_' then [] else [s[0]] + BeforeUnderscore(s[1..])
  }

  lemma {:induction false} BeforeUnderscoreOfJoin(w: string, rest: string)
    requires forall k :: 0 <= k < |w| ==> w[k] != '_'
    ensures BeforeUnderscore(w + "_" + rest) == w
    ensures BeforeUnderscore(w + ("_" + rest)) == w
  {
    assert w + "_" + rest == w + ("_" + rest);
    if w != [] {
      assert (w + "_" + rest)[1..] == w[1..] + "_" + rest;
      BeforeUnderscoreOfJoin(w[1..], rest);
    } else {
      assert (w + "_" + rest)[0] == '_';
    }
  }

  /** The per-group file name: the template `group%03d_%s.stk` in the
      protocol's extra directory, for a group number and a kind
      (`selfile`, `align` or `stack`). */
  function GroupFile(dir: string, group: int, kind: string): string {
    dir + "/group" + Text.Format03(group) + "_" + kind + ".stk"
  }

  /** Distinct (group, kind) pairs get distinct file names, so no two
      groups, and no two files of one group, share a file. */
  lemma GroupFileInjective(dir: string, g1: int, k1: string, g2: int, k2: string)
    requires GroupFile(dir, g1, k1) == GroupFile(dir, g2, k2)
    ensures g1 == g2 && k1 == k2
  {
    var f1, f2 := Text.Format03(g1), Text.Format03(g2);
    var head := dir + "/group";
    GroupFileParts(dir, g1, k1);
    GroupFileParts(dir, g2, k2);
    DropSuffix(head + (f1 + "_" + k1), head + (f2 + "_" + k2), ".stk");
    DropPrefix(head, f1 + "_" + k1, f2 + "_" + k2);
    Text.Format03Shape(g1);
    Text.Format03Shape(g2);
    BeforeUnderscoreOfJoin(f1, k1);
    BeforeUnderscoreOfJoin(f2, k2);
    Text.Format03Injective(g1, g2);
    DropPrefix(f1 + "_", k1, k2);
  }

  lemma GroupFileParts(dir: string, g: int, k: string)
    ensures GroupFile(dir, g, k) == (dir + "/group") + (Text.Format03(g) + "_" + k) + ".stk"
  {
  }

  lemma DropPrefix(a: string, x: string, y: string)
    requires a + x == a + y
    ensures x == y
  {
    assert x == (a + x)[|a|..];
    assert y == (a + y)[|a|..];
  }

  lemma DropSuffix(x: string, y: string, b: string)
    requires x + b == y + b
    ensures x == y
  {
    assert x == (x + b)[..|x|];
    assert y == (y + b)[..|y|];
  }

  /** The alignment row written for the `counter`-th particle of a group:
      fifteen values, the counter at index 4, -1 at indices 3 and 5 and
      zero everywhere else (placeholder angles and shifts). */
  function AlignmentRow(counter: nat): (row: seq<real>)
    ensures |row| == 15
    ensures row[4] == counter as real && row[3] == -1.0 && row[5] == -1.0
    ensures forall k :: 0 <= k < 15 && k != 3 && k != 4 && k != 5 ==> row[k] == 0.0
  {
    [0.0, 0.0, 0.0, -1.0, counter as real, -1.0, 0.0, 0.0, 0.0, 0.0, 0.0, 0.0, 0.0, 0.0, 0.0]
  }

  /** The defocus a group takes from its first particle. */
  function MeanDefocus(p: Particle): real {
    (p.defocusU + p.defocusV) / 2.0
  }

  /** The two comment lines that open every alignment document. */
  const AlignComments: seq<string> := [
    "spi/dat   Generated by Scipion on now",
    "  KEY       PSI,    THE,    PHI,   REF#,    EXP#,  CUM.{ROT,   SX,    SY},  NPROJ,   DIFF,      CCROT,    ROT,     SX,     SY,   MIR-CC"]

  /** One defocus group: its number, its three file names, the particle
      counter, the defocus, and what has been written to its stack,
      selection file and alignment document. `particles` is the (ghost)
      list of particles added so far. */
  class DefocusGroupInfo {
    const number: int
    const selfile: string
    const docfile: string
    const stackfile: string
    var counter: nat
    var defocus: Option<real>
    var stack: seq<(nat, Particle)>
    var sel: seq<nat>
    var docComments: seq<string>
    var doc: seq<seq<real>>
    var closed: bool
    ghost var particles: seq<Particle>

    /** What has been written is exactly what the particles added so far
        call for: the counter is their number, the `k`-th particle (from
        1) went to stack position `k` and selection line `k` with
        alignment row `k`, and the defocus is the first particle's. */
    ghost predicate Valid()
      reads this`counter, this`stack, this`sel, this`doc, this`docComments, this`defocus, this`particles
    {
      && counter == |particles| && |stack| == counter && |sel| == counter && |doc| == counter
      && docComments == AlignComments
      && (forall k :: 0 <= k < counter ==> stack[k] == (k + 1, particles[k]))
      && (forall k :: 0 <= k < counter ==> sel[k] == k + 1)
      && (forall k :: 0 <= k < counter ==> doc[k] == AlignmentRow(k + 1))
      && defocus == (if counter == 0 then None else Some(MeanDefocus(particles[0])))
    }

    /** A new, empty group with its files named after its number; the
        alignment document starts with its two comment lines. */
    constructor (defocusGroup: int, dir: string)
      ensures number == defocusGroup
      ensures selfile == GroupFile(dir, defocusGroup, "selfile")
      ensures docfile == GroupFile(dir, defocusGroup, "align")
      ensures stackfile == GroupFile(dir, defocusGroup, "stack")
      ensures particles == [] && !closed && Valid()
    {
      number := defocusGroup;
      selfile := GroupFile(dir, defocusGroup, "selfile");
      docfile := GroupFile(dir, defocusGroup, "align");
      stackfile := GroupFile(dir, defocusGroup, "stack");
      counter := 0;
      defocus := None;
      stack, sel, doc := [], [], [];
      docComments := AlignComments;
      closed := false;
      particles := [];
    }

    /** Count the particle, take the defocus from it when it is the first,
        and write its stack entry, selection line and alignment row. */
    method AddParticle(p: Particle)
      requires Valid()
      modifies this
      ensures Valid() && particles == old(particles) + [p]
      ensures counter == old(counter) + 1 && closed == old(closed)
    {
      counter := counter + 1;
      if counter == 1 {
        defocus := Some(MeanDefocus(p));
      }
      stack := stack + [(counter, p)];
      sel := sel + [counter];
      doc := doc + [AlignmentRow(counter)];
      particles := particles + [p];
    }

    /** Close the selection file and the alignment document. */
    method Close()
      requires Valid()
      modifies this`closed
      ensures Valid() && closed
    {
      closed := true;
    }
  }

  /** The particles of micrograph `g`, in order. */
  function OfGroup(ps: seq<Particle>, g: int): seq<Particle>
  {
    if ps == [] then []
    else OfGroup(ps[..|ps| - 1], g) + (if ps[|ps| - 1].micId == g then [ps[|ps| - 1]] else [])
  }

  /** The micrograph ids of `ps` in order of first appearance. */
  function FirstSeen(ps: seq<Particle>): seq<int>
  {
    if ps == [] then []
    else
      var gs := FirstSeen(ps[..|ps| - 1]);
      var g := ps[|ps| - 1].micId;
      if g in gs then gs else gs + [g]
  }

  /** The first-seen list names every micrograph of `ps` exactly once and
      nothing else. */
  lemma {:induction false} FirstSeenLists(ps: seq<Particle>)
    ensures forall i, j :: 0 <= i < j < |FirstSeen(ps)| ==> FirstSeen(ps)[i] != FirstSeen(ps)[j]
    ensures forall g :: g in FirstSeen(ps) <==> exists k :: 0 <= k < |ps| && ps[k].micId == g
  {
    if ps != [] {
      var init, p := ps[..|ps| - 1], ps[|ps| - 1];
      FirstSeenLists(init);
      assert ps == init + [p];
      var gs0 := FirstSeen(init);
      forall g
        ensures g in FirstSeen(ps) <==> exists k :: 0 <= k < |ps| && ps[k].micId == g
      {
        if exists k :: 0 <= k < |ps| && ps[k].micId == g {
          var k :| 0 <= k < |ps| && ps[k].micId == g;
          if k < |init| {
            assert init[k] == ps[k];
          }
        }
        if g in gs0 {
          var k :| 0 <= k < |init| && init[k].micId == g;
          assert ps[k] == init[k];
        }
        if g == p.micId {
          assert ps[|ps| - 1] == p;
        }
      }
    }
  }

  /** The particles of a group all belong to its micrograph, and a
      particle belongs to its micrograph's group. */
  lemma {:induction false} OfGroupMembers(ps: seq<Particle>, g: int)
    ensures forall q :: q in OfGroup(ps, g) ==> q.micId == g && q in ps
    ensures forall k :: 0 <= k < |ps| && ps[k].micId == g ==> ps[k] in OfGroup(ps, g)
  {
    if ps != [] {
      var init := ps[..|ps| - 1];
      OfGroupMembers(init, g);
      assert forall k :: 0 <= k < |init| ==> init[k] == ps[k];
    }
  }

  /** The number of times `g` occurs in `gs`. */
  function Occurrences(gs: seq<int>, g: int): nat {
    if gs == [] then 0 else Occurrences(gs[1..], g) + (if gs[0] == g then 1 else 0)
  }

  lemma {:induction false} OccurrencesOfDistinct(gs: seq<int>, g: int)
    requires forall i, j :: 0 <= i < j < |gs| ==> gs[i] != gs[j]
    ensures Occurrences(gs, g) == if g in gs then 1 else 0
  {
    if gs != [] {
      OccurrencesOfDistinct(gs[1..], g);
      if gs[0] == g {
        assert g !in gs[1..] by {
          forall k | 0 <= k < |gs[1..]|
            ensures gs[1..][k] != g
          {
            assert gs[k + 1] == gs[1..][k];
          }
        }
      }
    }
  }

  /** The group sizes of the groups listed in `gs`, added up. */
  function SumCounts(ps: seq<Particle>, gs: seq<int>): nat {
    if gs == [] then 0 else |OfGroup(ps, gs[0])| + SumCounts(ps, gs[1..])
  }

  lemma {:induction false} SumCountsStep(ps: seq<Particle>, p: Particle, gs: seq<int>)
    ensures SumCounts(ps + [p], gs) == SumCounts(ps, gs) + Occurrences(gs, p.micId)
  {
    if gs != [] {
      SumCountsStep(ps, p, gs[1..]);
      assert (ps + [p])[..|ps + [p]| - 1] == ps;
    }
  }

  /** Over groups listed once each and covering every particle, the group
      sizes add up to the number of particles. */
  lemma {:induction false} SumCountsIsTotal(ps: seq<Particle>, gs: seq<int>)
    requires forall i, j :: 0 <= i < j < |gs| ==> gs[i] != gs[j]
    requires forall k :: 0 <= k < |ps| ==> ps[k].micId in gs
    ensures SumCounts(ps, gs) == |ps|
  {
    if ps == [] {
      SumCountsEmpty(gs);
    } else {
      var init, p := ps[..|ps| - 1], ps[|ps| - 1];
      assert forall k :: 0 <= k < |init| ==> init[k] == ps[k];
      SumCountsIsTotal(init, gs);
      assert ps == init + [p];
      SumCountsStep(init, p, gs);
      OccurrencesOfDistinct(gs, p.micId);
    }
  }

  lemma {:induction false} SumCountsEmpty(gs: seq<int>)
    ensures SumCounts([], gs) == 0
  {
    if gs != [] {
      SumCountsEmpty(gs[1..]);
    }
  }

  /** A line of the summary document: group number, particle count and
      defocus. */
  datatype GroupRow = GroupRow(number: int, counter: nat, defocus: real)

  /** Distinct micrograph ids have distinct group objects. */
  predicate Injective(groups: map<int, DefocusGroupInfo>) {
    forall g1, g2 :: g1 in groups && g2 in groups && g1 != g2 ==> groups[g1] != groups[g2]
  }

  /** The groups keyed by micrograph id are distinct objects, listed in
      first-seen order, and each is in step with its particles in `ps`. */
  ghost predicate GroupsFollow(groups: map<int, DefocusGroupInfo>, order: seq<int>, ps: seq<Particle>)
    reads groups.Values
  {
    && order == FirstSeen(ps)
    && (forall g :: g in groups <==> g in order)
    && Injective(groups)
    && (forall g :: g in groups ==> groups[g].Valid() && groups[g].number == g)
    && (forall g :: g in groups ==> groups[g].particles == OfGroup(ps, g))
  }

  lemma OfGroupSnoc(ps: seq<Particle>, p: Particle, g: int)
    ensures OfGroup(ps + [p], g) == OfGroup(ps, g) + (if p.micId == g then [p] else [])
  {
    assert (ps + [p])[..|ps|] == ps;
  }

  lemma FirstSeenSnoc(ps: seq<Particle>, p: Particle)
    ensures FirstSeen(ps + [p]) == if p.micId in FirstSeen(ps) then FirstSeen(ps) else FirstSeen(ps) + [p.micId]
  {
    assert (ps + [p])[..|ps|] == ps;
  }

  /** One step of the grouping loop: the particle's group is looked up,
      or created at the end of the order when its micrograph is new, and
      the particle is added to it. */
  method AddToGroups(groups: map<int, DefocusGroupInfo>, order: seq<int>, ps: seq<Particle>, p: Particle, dir: string)
    returns (groups': map<int, DefocusGroupInfo>, order': seq<int>)
    requires GroupsFollow(groups, order, ps)
    requires forall g :: g in groups ==> !groups[g].closed
    modifies groups.Values
    ensures GroupsFollow(groups', order', ps + [p])
    ensures forall g :: g in groups' ==> !groups'[g].closed
    ensures forall g :: g in groups' ==> (g in groups && groups'[g] == groups[g]) || fresh(groups'[g])
  {
    FirstSeenSnoc(ps, p);
    if p.micId !in groups {
      groups', order' := AddToNewGroup(groups, order, ps, p, dir);
    } else {
      AddToOldGroup(groups, order, ps, p);
      groups', order' := groups, order;
    }
  }

  method AddToNewGroup(groups: map<int, DefocusGroupInfo>, order: seq<int>, ps: seq<Particle>, p: Particle, dir: string)
    returns (groups': map<int, DefocusGroupInfo>, order': seq<int>)
    requires GroupsFollow(groups, order, ps) && p.micId !in groups
    requires forall g :: g in groups ==> !groups[g].closed
    ensures GroupsFollow(groups', order', ps + [p])
    ensures forall g :: g in groups' ==> !groups'[g].closed
    ensures forall g :: g in groups' ==> (g in groups && groups'[g] == groups[g]) || fresh(groups'[g])
  {
    var info := new DefocusGroupInfo(p.micId, dir);
    OfGroupAbsent(ps, p.micId);
    info.AddParticle(p);
    assert GroupsFollow(groups, order, ps);
    GroupsExtend(groups, order, ps, p, info);
    groups' := groups[p.micId := info];
    order' := order + [p.micId];
  }

  /** A new group holding just `p`, for a micrograph not seen before,
      extends groups that follow `ps` to groups that follow `ps + [p]`. */
  lemma GroupsExtend(groups: map<int, DefocusGroupInfo>, order: seq<int>, ps: seq<Particle>, p: Particle, info: DefocusGroupInfo)
    requires GroupsFollow(groups, order, ps) && p.micId !in groups && info !in groups.Values
    requires info.Valid() && info.number == p.micId && info.particles == [p]
    ensures GroupsFollow(groups[p.micId := info], order + [p.micId], ps + [p])
  {
    FirstSeenSnoc(ps, p);
    OfGroupAbsent(ps, p.micId);
    var groups' := groups[p.micId := info];
    forall g | g in groups'
      ensures groups'[g].particles == OfGroup(ps + [p], g)
    {
      OfGroupSnoc(ps, p, g);
    }
  }

  method AddToOldGroup(groups: map<int, DefocusGroupInfo>, order: seq<int>, ps: seq<Particle>, p: Particle)
    requires GroupsFollow(groups, order, ps) && p.micId in groups
    requires forall g :: g in groups ==> !groups[g].closed
    modifies groups[p.micId]
    ensures GroupsFollow(groups, order, ps + [p])
    ensures forall g :: g in groups ==> !groups[g].closed
  {
    FirstSeenSnoc(ps, p);
    var info := groups[p.micId];
    info.AddParticle(p);
    forall g | g in groups
      ensures groups[g].particles == OfGroup(ps + [p], g)
    {
      OfGroupSnoc(ps, p, g);
    }
  }

  /** The first loop of `_writeGroupFiles`: one `DefocusGroupInfo` per
      distinct micrograph id, created at its first particle and reused
      afterwards; every particle is added to its group, in order. */
  method GroupParticles(parts: seq<Particle>, dir: string)
    returns (groups: map<int, DefocusGroupInfo>, order: seq<int>)
    ensures forall g :: g in groups ==> fresh(groups[g])
    ensures forall g :: g in groups ==> !groups[g].closed
    ensures GroupsFollow(groups, order, parts)
  {
    groups, order := map[], [];
    for k := 0 to |parts|
      invariant forall g :: g in groups ==> fresh(groups[g])
      invariant forall g :: g in groups ==> !groups[g].closed
      invariant GroupsFollow(groups, order, parts[..k])
    {
      assert parts[..k + 1] == parts[..k] + [parts[k]];
      forall o | o in groups.Values
        ensures fresh(o)
      {
        var g := KeyOf(groups, o);
      }
      groups, order := AddToGroups(groups, order, parts[..k], parts[k], dir);
    }
    assert parts[..|parts|] == parts;
  }

  /** `_writeGroupFiles`: group the particles, then write one summary row
      per group (number, count, defocus) and close every group's files.
      The counts are the group sizes and add up to the number of
      particles; each defocus is that of the group's first particle. */
  method WriteGroupFiles(parts: seq<Particle>, dir: string)
    returns (groups: map<int, DefocusGroupInfo>, order: seq<int>, summary: seq<GroupRow>)
    ensures forall g :: g in groups ==> fresh(groups[g]) && groups[g].closed
    ensures order == FirstSeen(parts) && (forall g :: g in groups <==> g in order)
    ensures forall g :: g in groups ==>
      groups[g].Valid() && groups[g].number == g && groups[g].particles == OfGroup(parts, g)
    ensures |summary| == |order|
    ensures forall k :: 0 <= k < |order| ==> |OfGroup(parts, order[k])| > 0 && summary[k] == SummaryRow(parts, order[k])
    ensures SumCounts(parts, order) == |parts|
  {
    groups, order := GroupParticles(parts, dir);
    forall o | o in groups.Values
      ensures fresh(o)
    {
      var g := KeyOf(groups, o);
    }
    FirstSeenLists(parts);
    forall i | 0 <= i < |order|
      ensures order[i] in groups && |OfGroup(parts, order[i])| > 0
    {
      assert order[i] in order;
      FirstSeenNonEmpty(parts, order[i]);
    }
    summary := WriteSummary(groups, order, parts);
    forall g | g in groups
      ensures groups[g].closed
    {
      var i :| 0 <= i < |order| && order[i] == g;
    }
    forall k | 0 <= k < |parts|
      ensures parts[k].micId in order
    {
    }
    SumCountsIsTotal(parts, order);
  }

  /** The summary row of micrograph `g`: its number, the size of its group
      and the defocus of its first particle. */
  function SummaryRow(ps: seq<Particle>, g: int): GroupRow
    requires |OfGroup(ps, g)| > 0
  {
    GroupRow(g, |OfGroup(ps, g)|, MeanDefocus(OfGroup(ps, g)[0]))
  }

  /** The second loop of `_writeGroupFiles`: a summary row per group, in
      order, closing each group's files. */
  method WriteSummary(groups: map<int, DefocusGroupInfo>, order: seq<int>, ps: seq<Particle>)
    returns (summary: seq<GroupRow>)
    requires forall i :: 0 <= i < |order| ==> order[i] in groups && |OfGroup(ps, order[i])| > 0
    requires forall g :: g in groups ==>
      groups[g].Valid() && groups[g].number == g && groups[g].particles == OfGroup(ps, g)
    modifies groups.Values`closed
    ensures forall g :: g in groups ==>
      groups[g].Valid() && groups[g].number == g && groups[g].particles == OfGroup(ps, g)
    ensures forall i :: 0 <= i < |order| ==> groups[order[i]].closed
    ensures |summary| == |order|
    ensures forall i :: 0 <= i < |order| ==> summary[i] == SummaryRow(ps, order[i])
  {
    summary := [];
    ghost var done: set<DefocusGroupInfo> := {};
    for k := 0 to |order|
      invariant forall o :: o in done ==> o.closed
      invariant forall i :: 0 <= i < k ==> groups[order[i]] in done
      invariant |summary| == k
      invariant forall i :: 0 <= i < k ==> summary[i] == SummaryRow(ps, order[i])
    {
      var gi := groups[order[k]];
      var row := SummarizeGroup(gi, ps, order[k], done);
      summary := summary + [row];
      done := done + {gi};
    }
  }

  /** One iteration of the summary loop: the group's row, then its files
      are closed. */
  method SummarizeGroup(gi: DefocusGroupInfo, ps: seq<Particle>, g: int, ghost done: set<DefocusGroupInfo>)
    returns (row: GroupRow)
    requires gi.Valid() && gi.number == g && gi.particles == OfGroup(ps, g) && |OfGroup(ps, g)| > 0
    requires forall o :: o in done ==> o.closed
    modifies gi`closed
    ensures row == SummaryRow(ps, g) && gi.closed
    ensures forall o :: o in done ==> o.closed
  {
    row := GroupRow(gi.number, gi.counter, gi.defocus.value);
    gi.Close();
  }

  lemma {:induction false} OfGroupAbsent(ps: seq<Particle>, g: int)
    requires g !in FirstSeen(ps)
    ensures OfGroup(ps, g) == []
  {
    if ps != [] {
      FirstSeenLists(ps);
      var init := ps[..|ps| - 1];
      FirstSeenLists(init);
      forall k | 0 <= k < |init|
        ensures init[k].micId != g
      {
        assert init[k] == ps[k];
      }
      assert g !in FirstSeen(init);
      OfGroupAbsent(init, g);
    }
  }

  /** A micrograph listed among the first-seen ids has at least one
      particle. */
  lemma FirstSeenNonEmpty(ps: seq<Particle>, g: int)
    requires g in FirstSeen(ps)
    ensures |OfGroup(ps, g)| > 0
  {
    FirstSeenLists(ps);
    var k :| 0 <= k < |ps| && ps[k].micId == g;
    OfGroupHas(ps, k);
  }

  lemma {:induction false} OfGroupHas(ps: seq<Particle>, k: int)
    requires 0 <= k < |ps|
    ensures |OfGroup(ps, ps[k].micId)| > 0
  {
    if k < |ps| - 1 {
      var init := ps[..|ps| - 1];
      assert init[k] == ps[k];
      OfGroupHas(init, k);
    }
  }
}

=== FILE: text.dfy ===
/** Text helpers shared by the file readers and writers: whitespace
    tokenisation (the library's `first_token`/`next_token`) and decimal
    rendering of integers (C++ stream output of an `int`, Python `%d`). */
module Text {

  /** The separators the tokeniser splits on. */
  predicate IsSep(c: char) {
    c == ' ' || c == '\t' || c == '\n'
  }

  predicate NoSep(s: string) {
    forall k :: 0 <= k < |s| ==> !IsSep(s[k])
  }

  /** The longest prefix of `s` without a separator. */
  function Word(s: string): (w: string)
    ensures |w| <= |s| && w == s[..|w|] && NoSep(w)
    ensures |w| < |s| ==> IsSep(s[|w|])
  {
    if s == [] || IsSep(s[0]) then [] else [s[0]] + Word(s[1..])
  }

  /** The tokens of a line, in order: maximal runs of non-separators. */
  function Tokens(s: string): seq<string>
    decreases |s|
  {
    if s == [] then []
    else if IsSep(s[0]) then Tokens(s[1..])
    else
      var w := Word(s);
      [w] + Tokens(s[|w|..])
  }

  lemma {:induction false} WordOfJoin(w: string, rest: string)
    requires NoSep(w)
    requires rest == [] || IsSep(rest[0])
    ensures Word(w + rest) == w
  {
    if w != [] {
      assert (w + rest)[1..] == w[1..] + rest;
      WordOfJoin(w[1..], rest);
    }
  }

  lemma {:induction false} TokensSkipSeps(seps: string, rest: string)
    requires forall k :: 0 <= k < |seps| ==> IsSep(seps[k])
    ensures Tokens(seps + rest) == Tokens(rest)
  {
    if seps != [] {
      var s := seps + rest;
      assert s[0] == seps[0] && s[1..] == seps[1..] + rest;
      assert IsSep(s[0]);
      assert Tokens(s) == Tokens(s[1..]);
      TokensSkipSeps(seps[1..], rest);
    } else {
      assert seps + rest == rest;
    }
  }

  /** A non-empty word followed by separators and more text is the first
      token, and the tokens of the remaining text follow it. */
  lemma TokensOfJoin(w: string, seps: string, rest: string)
    requires w != [] && NoSep(w)
    requires seps != [] && forall k :: 0 <= k < |seps| ==> IsSep(seps[k])
    ensures Tokens(w + seps + rest) == [w] + Tokens(rest)
    ensures Tokens(w + (seps + rest)) == [w] + Tokens(rest)
  {
    var s := w + seps + rest;
    assert s == w + (seps + rest);
    WordOfJoin(w, seps + rest);
    assert s[|w|..] == seps + rest;
    TokensSkipSeps(seps, rest);
  }

  lemma TokensOfWord(w: string)
    requires w != [] && NoSep(w)
    ensures Tokens(w) == [w]
  {
    WordOfJoin(w, []);
    assert w + [] == w;
    assert w[|w|..] == [];
  }

  /** Words joined by single spaces, as a stream writes `a << " " << b`. */
  function Spaced(ws: seq<string>): string
  {
    if |ws| == 0 then "" else if |ws| == 1 then ws[0] else ws[0] + " " + Spaced(ws[1..])
  }

  /** Tokenising words written with single spaces gives the words back. */
  lemma {:induction false} TokensOfSpaced(ws: seq<string>)
    requires forall k :: 0 <= k < |ws| ==> ws[k] != [] && NoSep(ws[k])
    ensures Tokens(Spaced(ws)) == ws
  {
    if |ws| == 1 {
      TokensOfWord(ws[0]);
    } else if |ws| > 1 {
      TokensOfJoin(ws[0], " ", Spaced(ws[1..]));
      TokensOfSpaced(ws[1..]);
    }
  }

  // ---------------------------------------------------------------------
  // Decimal rendering of integers

  function DigitChar(d: nat): char
    requires d < 10
  {
    "0123456789"[d]
  }

  predicate IsDigit(c: char) {
    '0' <= c <= '9'
  }

  function DigitValue(c: char): nat
    requires IsDigit(c)
  {
    (c as int - '0' as int) as nat
  }

  /** Decimal digits of a natural number, without leading zeros. */
  function NatToString(n: nat): (s: string)
    ensures s != []
    ensures forall k :: 0 <= k < |s| ==> IsDigit(s[k])
  {
    if n < 10 then [DigitChar(n)] else NatToString(n / 10) + [DigitChar(n % 10)]
  }

  /** Decimal rendering of an integer, with a leading '-' when negative. */
  function IntToString(n: int): (s: string)
    ensures s != [] && NoSep(s)
  {
    if n >= 0 then NatToString(n) else "-" + NatToString(-n)
  }

  /** The value of a string of decimal digits (most significant first). */
  function DigitsValue(s: string): nat
    requires forall k :: 0 <= k < |s| ==> IsDigit(s[k])
  {
    if s == [] then 0 else DigitsValue(s[..|s| - 1]) * 10 + DigitValue(s[|s| - 1])
  }

  lemma {:induction false} DigitsValueOfNatToString(n: nat)
    ensures DigitsValue(NatToString(n)) == n
  {
    var s := NatToString(n);
    if n >= 10 {
      DigitsValueOfNatToString(n / 10);
      assert s[..|s| - 1] == NatToString(n / 10);
    }
  }

  /** Leading zeros do not change the value of a digit string. */
  lemma {:induction false} DigitsValueLeadingZero(s: string)
    requires forall k :: 0 <= k < |s| ==> IsDigit(s[k])
    ensures DigitsValue("0" + s) == DigitsValue(s)
  {
    if s != [] {
      var t := "0" + s;
      assert t[..|t| - 1] == "0" + s[..|s| - 1];
      DigitsValueLeadingZero(s[..|s| - 1]);
    }
  }

  /** `s` left-padded with '0' to at least `width` characters. */
  function ZeroPad(s: string, width: nat): (r: string)
    ensures |r| >= width && |r| >= |s|
    ensures (forall k :: 0 <= k < |s| ==> IsDigit(s[k])) ==> forall k :: 0 <= k < |r| ==> IsDigit(r[k])
    decreases width - |s|
  {
    if |s| >= width then s else ZeroPad("0" + s, width)
  }

  lemma {:induction false} DigitsValueOfZeroPad(s: string, width: nat)
    requires forall k :: 0 <= k < |s| ==> IsDigit(s[k])
    ensures DigitsValue(ZeroPad(s, width)) == DigitsValue(s)
    decreases width - |s|
  {
    if |s| < width {
      DigitsValueLeadingZero(s);
      DigitsValueOfZeroPad("0" + s, width);
    }
  }

  /** Python's `'%03d' % n`: at least three characters, zero padded after
      the sign. */
  function Format03(n: int): (s: string)
  {
    if n >= 0 then ZeroPad(NatToString(n), 3) else "-" + ZeroPad(NatToString(-n), 2)
  }

  /** `%03d` never produces an underscore, so it can be followed by `_` as a
      field separator; and it is at least three characters long. */
  lemma Format03Shape(n: int)
    ensures |Format03(n)| >= 3
    ensures forall k :: 0 <= k < |Format03(n)| ==> Format03(n)[k] == '-' || IsDigit(Format03(n)[k])
  {
  }

  /** The rendering starts with '-' exactly for negative numbers. */
  lemma Format03Sign(n: int)
    ensures Format03(n)[0] == '-' <==> n < 0
  {
    if n >= 0 {
      assert IsDigit(Format03(n)[0]);
    }
  }

  /** Distinct numbers render differently under `%03d`. */
  lemma Format03Injective(n: int, m: int)
    requires Format03(n) == Format03(m)
    ensures n == m
  {
    if n >= 0 {
      Format03InjectiveNonNegative(n, m);
    } else {
      Format03InjectiveNegative(n, m);
    }
  }

  lemma Format03InjectiveNonNegative(n: int, m: int)
    requires Format03(n) == Format03(m) && n >= 0
    ensures n == m
  {
    Format03Sign(n);
    Format03Sign(m);
    PaddedValue(n, 3);
    PaddedValue(m, 3);
  }

  lemma Format03InjectiveNegative(n: int, m: int)
    requires Format03(n) == Format03(m) && n < 0
    ensures n == m
  {
    Format03Sign(n);
    Format03Sign(m);
    assert m < 0;
    var a, b := ZeroPad(NatToString(-n), 2), ZeroPad(NatToString(-m), 2);
    assert a == b by {
      assert Format03(n) == "-" + a && Format03(m) == "-" + b;
      assert a == ("-" + a)[1..] && b == ("-" + b)[1..];
    }
    PaddedInjective(-n, -m, 2);
  }

  /** Zero-padded decimal renderings of the same width are equal only for
      equal numbers. */
  lemma PaddedInjective(x: nat, y: nat, width: nat)
    requires ZeroPad(NatToString(x), width) == ZeroPad(NatToString(y), width)
    ensures x == y
  {
    PaddedValue(x, width);
    PaddedValue(y, width);
  }

  lemma PaddedValue(n: nat, width: nat)
    ensures DigitsValue(ZeroPad(NatToString(n), width)) == n
  {
    DigitsValueOfZeroPad(NatToString(n), width);
    DigitsValueOfNatToString(n);
  }
}

=== FILE: wrappers.dfy ===
/** Failure-carrying values and the map and sequence helpers shared by
    the modules of this model. */
module Wrappers {

  datatype Option<+T> = None | Some(value: T)

  /** The outcome of an operation that reports a numbered error, as the
      `REPORT_ERROR(code, message)` calls of the library do. */
  datatype Status = Ok | Error(code: int)

  /** A key under which a value of a map is stored. */
  lemma KeyOf<K, V>(m: map<K, V>, v: V) returns (k: K)
    requires v in m.Values
    ensures k in m && m[k] == v
  {
    k :| k in m && m[k] == v;
  }

  /** Regrouping a concatenation, for the loops that append one piece at
      a time. */
  lemma AppendAssoc<T>(a: seq<T>, b: seq<T>, c: seq<T>)
    ensures (a + b) + c == a + (b + c)
  {
  }

  /** A prefix one longer is the prefix followed by the next element. */
  lemma TakeSnoc<T>(s: seq<T>, i: nat)
    requires i < |s|
    ensures s[..i + 1] == s[..i] + [s[i]]
  {
  }
}
